=== FILE: README.md ===
# Navaro Engine ports: timed events, event store and console helpers

This project is a Dafny model of the pure logic inside two of the Navaro
Engine's platform ports and its demo front end.

- **POSIX port** (`src/port/engine_posix.c`):
  - the list of pending timed events, a singly linked list kept ordered by
    absolute expiry;
  - `insert_event`, `remove_event` and the firing pass of `engine_thread`;
  - the `engine_port_event_queue` and `engine_port_event_cancel` entry
    points built on them;
  - the 100-slot variable table;
  - the per-heap byte accounting of `engine_port_malloc` and
    `engine_port_free`;
  - the registry reader: `read_string`'s name matching and value trimming,
    and `registry_string_get`.
- **Coral port** (`src/port/engine_coral.c`): a store of twenty statically
  allocated event nodes on a free stack, with the heap as fallback. It covers
  `engine_task_init`/`alloc`/`free`/`wait` and the event create, queue,
  callback and cancel entry points.
- **Demo front end** (`test/main.c`): `get_config_file` (the registry file
  name derived from the command line), and the `list` and `out` console
  callbacks.

The model is functional:
- The pending list and the free stack are immutable sequences.
- A node's address is its `id` in the POSIX list, and `Pool(slot)` or
  `Heap(id)` in the Coral store.
- The clock is a parameter `now`.
- The wake-up semaphore post is a returned `signal` flag.
- What the Coral platform's task queue answers is a parameter:
  `svc_tasks_schedule`, `svc_tasks_cancel`, `svc_task_expire` and the
  millisecond/tick conversions.
- C integer conversions are written out in module `Ints`: the `int32_t` cast
  of the insertion comparison, and the `uint32_t` counters and cancel result.

Cancelling a node that is no longer pending is undefined in the POSIX port:
`remove_event` (src/port/engine_posix.c:136) walks the list with no
end-of-list check until it meets the node, and `engine_port_event_cancel`
then frees the node (line 467). The model therefore requires a cancelled node
to be pending. It does not treat such a cancel as a no-op returning 0.

Modules: `Ints`, `Optional`, `EngineStatus`, `TimerList`, `PosixPort`, `Registry`,
`CoralPool`, `CoralPort`, `Console`.

## Model

| member | source | states |
|---|---|---|
| Ints.ToInt32 | src/port/engine_posix.c:158 | the `(int32_t)` cast: the result is in the 32-bit signed range, equals the input when that fits, and differs from it by a multiple of 2^32 |
| Ints.ToUint32 | src/port/engine_posix.c:462 | the `(uint32_t)` cast: the result is in 0..2^32-1, equals the input when that fits, and differs from it by a multiple of 2^32 |
| TimerList.InsertIndex | src/port/engine_posix.c:156-165 | the insertion walk steps over exactly the leading nodes the new node is not before (by the truncated 32-bit difference) and stops at the first it is before |
| TimerList.InsertEvent | src/port/engine_posix.c:147-183 | the new list is the old one with the node spliced in after the leading run of nodes it is not before, in front of the first node it is before; it signals iff the list was empty or the node goes in front of the head, and the head is then the new node |
| TimerList.InsertAddsOneNode | src/port/engine_posix.c:147-183 | insertion adds exactly the one node: the multiset of nodes grows by it and nothing else |
| TimerList.NotBeforeInWindow | src/port/engine_posix.c:158 | while the expiry difference fits in 32 bits, the truncated comparison is the plain `<=` on expiries |
| TimerList.InsertAfterTies | src/port/engine_posix.c:156-176 | on a sorted list within the 32-bit window the new node goes after every node with an equal or earlier expiry (ties first-in first-out) and before every later one; it signals iff the list was empty or its expiry is strictly earlier than the head's |
| TimerList.InsertKeepsSorted | src/port/engine_posix.c:147-183 | insertion keeps a sorted list within the window sorted by expiry |
| TimerList.InsertKeepsIdsUnique | src/port/engine_posix.c:147-183 | inserting a node not yet linked keeps every node linked once, and the node is then in the list |
| TimerList.IndexOf | src/port/engine_posix.c:133-137 | the unlink walk stops at the first node with the given identity |
| TimerList.RemoveEvent | src/port/engine_posix.c:123-145 | an empty list is left alone without a signal; otherwise the first node with the identity is cut out, every other node keeps its relative order, and it signals iff that node was the head |
| TimerList.RemoveUndoesInsert | src/port/engine_posix.c:123-183 | cancelling a node straight after scheduling it gives back the original list, and signals exactly when the insertion did |
| TimerList.RemoveKeepsSorted | src/port/engine_posix.c:133-138 | unlinking keeps a sorted list sorted |
| TimerList.RemoveKeepsOthers | src/port/engine_posix.c:133-138 | with unique identities, unlinking removes exactly the node with that identity and keeps every other node |
| TimerList.FirePass | src/port/engine_posix.c:198-221 | the firing pass splits the list into a fired front and a rest that together are the list; every fired node was due and the rest's head is not due |
| TimerList.FirePassPrefix | src/port/engine_posix.c:198-221 | the fired nodes are a prefix of the list and the rest is the matching suffix |
| TimerList.FirePassLeavesNothingDue | src/port/engine_posix.c:198-221 | on a sorted list, the list left behind is sorted and none of its nodes is due |
| TimerList.FirePassFiresDue | src/port/engine_posix.c:198-221 | on a sorted list, a node is fired iff it is due |
| TimerList.InsertLatestAppends | src/port/engine_posix.c:156-176 | a node no earlier than every linked node (within the window) is appended at the tail |
| TimerList.InsertAllInOrder | src/port/engine_posix.c:147-183 | nodes inserted in non-decreasing order of expiry, within the window of each other, end up in insertion order |
| PosixPort.EventQueue | src/port/engine_posix.c:435-454 | a negative timeout fails and leaves the list and signal alone; otherwise the node is armed with event, register, parameter and expiry `now + timeout` and spliced in after the leading run of nodes it is not before, in front of the first node it is before (one node more, nothing else changed), returning OK and signalling iff it becomes the head |
| PosixPort.Remaining | src/port/engine_posix.c:459-469 | the time left is 0 once the node is due and `expire - now` while that is positive and fits the 32-bit result |
| PosixPort.EventCancel | src/port/engine_posix.c:456-470 | the pending node is unlinked (one node fewer, the rest in order), the time left until its expiry is returned, and it signals iff the node was the head |
| PosixPort.CancelReportsAtMostTimeout | src/port/engine_posix.c:435-470 | a node queued at `t0` with delay `d` and cancelled at `now >= t0` reports between 0 and `d`, more than 0 exactly when not yet due, and is no longer pending |
| PosixPort.ThreeQueuedInExpiryOrder | src/port/engine_posix.c:435-454 | nodes scheduled at time 0 with delays 50, 10 and 30 ms are listed in the order 10, 30, 50 |
| PosixPort.ThreeDelaysFireInOrder | src/port/engine_posix.c:198-221 | for those three nodes, the pass at 20 ms fires only the 10 ms node, and the pass at 50 ms fires all three in expiry order and empties the list |
| PosixPort.CancelAtFortyOfHundred | src/port/engine_posix.c:456-470 | a 100 ms node cancelled at 40 ms reports 60 ms and leaves the list empty |
| PosixPort.VariableWrite | src/port/engine_posix.c:363-373 | an index of 100 or more returns PARM and leaves the table unchanged; a valid write sets slot `idx` and no other |
| PosixPort.VariableRead | src/port/engine_posix.c:375-385 | an index of 100 or more returns PARM; a valid index reads its slot |
| PosixPort.ReadAfterWrite | src/port/engine_posix.c:363-385 | a valid write is read back, and a write never changes a read of another index |
| PosixPort.Malloc | src/port/engine_posix.c:387-402 | a failed allocation changes nothing; a successful one adds `size` to the heap's 32-bit count, sets its high-water mark to the larger of the old mark and the new count (the mark is one of the two and at least both) and leaves the other heap alone |
| PosixPort.Free | src/port/engine_posix.c:404-412 | a null pointer changes nothing; otherwise the block's stored size is taken off the named heap's 32-bit count, the mark is kept and the other heap is untouched |
| PosixPort.FreeUndoesMalloc | src/port/engine_posix.c:387-412 | freeing a block on the heap it came from restores that heap's count exactly, even across 32-bit wrap-around, keeps the mark and leaves the other heap as it was |
| PosixPort.PeakBoundsPreserved | src/port/engine_posix.c:387-412 | allocation, and any free of no more than is counted, keep each heap's mark at or above its count |
| Registry.LeadingSpace | src/port/engine_posix.c:529-533 | the skip loop stops at the first character that is not `\r`, `\n`, tab or space, having passed only such characters |
| Registry.KeptBeforeSpace | src/port/engine_posix.c:535-539 | the backward cut removes only trailing whitespace and stops at a character that is not whitespace |
| Registry.Trim | src/port/engine_posix.c:532-539 | the trimmed value is a slice of the value with whitespace only before and after it, and it neither starts nor ends with whitespace |
| Registry.TrimIdempotent | src/port/engine_posix.c:532-539 | trimming a trimmed value changes nothing |
| Registry.StrnEqualMeansPrefix | src/port/engine_posix.c:531 | `strncmp(name, key, n) == 0` holds iff the first `n` characters of the key begin the name, or iff name and key are equal when `n` exceeds the key's length |
| Registry.FirstMatch | src/port/engine_posix.c:528-544 | nothing is found iff no entry matches; otherwise the result is the trimmed value of a matching entry with no match before it |
| Registry.ReadString | src/port/engine_posix.c:517-548 | an unopenable file yields null; otherwise the result is the first match's trimmed value |
| Registry.CopyLength | src/port/engine_posix.c:567-574 | the reported length is the value's length when it fits the buffer and `length - 1` when it does not (for values below 2^32 characters), and for a non-zero `length` never more than the value holds; a zero `length` wraps the cut to 4294967295 |
| Registry.StringGetAsWritten | src/port/engine_posix.c:564-582 | as written: nothing found iff the lookup fails; otherwise the reported length is the cut length of the value found and the buffer holds the value's first `len - 1` characters, except that the write lands outside the buffer exactly when the buffer has at most one byte or the value is empty |
| Registry.WrittenCopy | src/port/engine_posix.c:570-576 | the copy of a found value as written: a stray write iff the buffer has at most one byte or the value is empty, else the cut length reported and one character fewer left |
| Registry.StringGet | src/port/engine_posix.c:564-582 | corrected: nothing found iff the lookup fails; a zero-sized buffer is left alone; otherwise the buffer holds exactly the reported number of leading characters of the value, fewer than the buffer size, the whole value when it fits and `length - 1` characters otherwise |
| Registry.CorrectedCopy | src/port/engine_posix.c:570-576 | the corrected copy of a found value: no room iff the buffer has zero size, else a prefix of the value shorter than the buffer, the whole value when it fits |
| Registry.CopiesCompared | src/port/engine_posix.c:575-576 | for every value and buffer size, the copy as written reports what the corrected copy reports but leaves its text without the last character, and writes outside the buffer where the corrected copy leaves nothing or has no room |
| Registry.StringGetAsWrittenLosesLast | src/port/engine_posix.c:564-582 | the same comparison for every file, key and buffer size: both find nothing together, and otherwise the code as written drops the corrected text's last character or writes outside the buffer |
| Registry.StringGetMatchesPrefix | src/port/engine_posix.c:568 | with the key's full length, an entry matches iff its name (after leading whitespace) starts with the key |
| Registry.StringGetDropsLastCharacter | src/port/engine_posix.c:575-576 | for the line `name=abc` and a 16-byte buffer, the code as written reports 3 characters and leaves "ab"; the corrected copy leaves "abc" |
| Registry.StringGetBlankValue | src/port/engine_posix.c:570-576 | a blank value makes the code as written store its terminator outside the buffer; the corrected copy reports 0 characters |
| CoralPool.FillOrder | src/port/engine_coral.c:119-127 | pushing slots 0..n-1 on the head leaves slot `n - 1 - i` at position `i` |
| CoralPool.Init | src/port/engine_coral.c:115-132 | a filled store is left alone; an unfilled one gets all twenty slots on the stack and a count of 20, with the outstanding count kept |
| CoralPool.AllocNode | src/port/engine_coral.c:64-92 | the outstanding count rises; a non-empty stack gives up its head slot and its count drops; an empty stack falls back to the heap, yielding nothing when the heap does; the throttle is requested iff the count after allocation is at most 2 |
| CoralPool.FreeNode | src/port/engine_coral.c:94-113 | the outstanding count drops; a store node goes back on the stack's head and its count rises; a heap node leaves the stack and count alone |
| CoralPool.InitValid | src/port/engine_coral.c:115-132 | the first fill makes the store valid with no node held, and a second fill changes nothing |
| CoralPool.AllSlotsComplete | src/port/engine_coral.c:37 | the store has exactly twenty distinct slots |
| CoralPool.FreePlusHeldIsCapacity | src/port/engine_coral.c:64-113 | in a valid store the free count plus the store nodes held is 20, so the count stays within 0..20 |
| CoralPool.DrainedStoreIsFull | src/port/engine_coral.c:146-147 | with every node returned, the count is 20, so `engine_task_wait`'s assertion holds |
| CoralPool.AllocKeepsValid | src/port/engine_coral.c:64-92 | allocation keeps the store valid: a store node handed out was not held, and a heap node (or nothing) comes only from an empty stack |
| CoralPool.FreeKeepsValid | src/port/engine_coral.c:94-113 | freeing a held node keeps the store valid without it, and the assertion that the count is below 20 holds |
| CoralPool.AllocThenFreeRestores | src/port/engine_coral.c:64-113 | freeing a node straight after allocating it restores the stack, the count and the outstanding count exactly |
| CoralPort.EventCreate | src/port/engine_coral.c:217-231 | creation fails iff the stack is empty and the heap yields nothing; otherwise the node carries the given callback, with the allocator's store and throttle |
| CoralPort.EventQueue | src/port/engine_coral.c:233-257 | a null event fails and frees nothing; a negative timeout fails and frees the node; otherwise the event and register are set and the task queue is asked, with 0 ticks for a zero timeout; an accepted schedule returns OK with the store untouched, and a refused one frees the node and fails |
| CoralPort.QueueCallback | src/port/engine_coral.c:203-214 | the callback fires iff the task ran, and the node is freed either way |
| CoralPort.EventCancel | src/port/engine_coral.c:259-268 | 0 when the cancel is refused or the stored expiry is 0, else the expiry converted to milliseconds |
| CoralPort.EventLifeRestoresStore | src/port/engine_coral.c:203-257 | create, queue, then a failed queue or the task queue's callback leaves the store exactly as before the create |
| CoralPort.OverflowFallsBackToHeap | src/port/engine_coral.c:73-89 | with all twenty store nodes held, a new event comes from the heap and the caller is throttled |
| Console.Truncate | test/main.c:181 | `strncpy` into a zeroed buffer keeps a prefix of at most `n` characters, all of the string when it fits |
| Console.DotScan | test/main.c:188-192 | the backward scan stops on a '.' past the first character, with none between it and the start point, or at the start |
| Console.ExtensionStart | test/main.c:188-196 | the cut point is the last '.' when it is past the first character, else 0 (no cut) |
| Console.ConfigFile | test/main.c:174-204 | a `--config` path is used, cut to `FILENAME_MAX - 1` characters; with neither option the name is empty; otherwise the machine file name, cut the same way, is kept up to its last '.' when that '.' is past the first character, or whole when there is no such '.', and gets ".cfg"; the result fits the `FILENAME_MAX + 4` buffer |
| Console.ConfigDropsLastExtension | test/main.c:184-198 | when the last '.' of the cut machine file name is past its first character, everything from it on is replaced by ".cfg" |
| Console.ConfigKeepsPlainName | test/main.c:186-198 | a cut name with no '.' past its first character is kept whole and gets ".cfg" |
| Console.ConfigExamples | test/main.c:174-204 | "m.sm" gives "m.cfg", ".sm" gives ".sm.cfg", "machine" gives "machine.cfg", an explicit "reg.txt" is used as is, and nothing gives "" |
| Console.ConfigDotInDirectory | test/main.c:188-192 | the scan crosses directory separators: "../m" gives "..cfg" and "dir.d/m" gives "dir.cfg" |
| Console.BaseCut | test/main.c:188-196 | corrected cut point: the last '.' of the base name when it is past the base name's first character, else the end |
| Console.ConfigFileCorrected | test/main.c:174-204 | corrected derivation: as before, but only the base name's last extension is replaced, so directories are always kept |
| Console.ConfigCorrectedExamples | test/main.c:184-198 | corrected: "../m" gives "../m.cfg", "dir.d/m" gives "dir.d/m.cfg", "dir/m.sm" gives "dir/m.cfg" |
| Console.PadRight | test/main.c:217 | `%-24s`: the name followed by spaces up to 24 characters, never cut |
| Console.List | test/main.c:206-218 | a header with the type's title is printed iff the type differs from the previous call's; the entry line is the padded name and the description |
| Console.HeadersAtTypeChanges | test/main.c:209-214 | over a run of calls, a header is printed exactly where the type changes from the previous call's |
| Console.Out | test/main.c:220-228 | the output starts with the string and ends in '\n'; it is the string alone iff that already ends in '\n', else the string plus "\r\n" |
| Console.OutIdempotent | test/main.c:223-225 | a line `out` has terminated is not terminated again: passing the output through `out` a second time leaves it unchanged |


The contracts above are stated with these definitions, which carry no
contract of their own:

- `PosixPort.NewTimer`: the zeroed node with only its callback set, as
  `engine_port_event_create` leaves it (src/port/engine_posix.c:426-433).
- `PosixPort.Armed`: the node with event, register, parameter and expiry
  filled in as `engine_port_event_queue` does (src/port/engine_posix.c:445-449).
- `Registry.SkipSpace`: the name after the `_isspace` walk
  (src/port/engine_posix.c:530).
- `Registry.IsSpace`: `_isspace`, only carriage return, line feed, tab and
  space (src/port/engine_posix.c:511-515).
- `Registry.StrnEqual`: `strncmp(a, b, n) == 0`
  (src/port/engine_posix.c:531). `Registry.StrnEqualMeansPrefix` states
  what it means.
- `Registry.Matches`: the test in the scan loop, on the name after leading
  whitespace (src/port/engine_posix.c:529-531).
- `Console.TypeName`: the `type_names` table, with its spelling
  "Constatnts" (test/main.c:212).
- `TimerList.NotBefore` and `TimerList.Due`: the loop conditions of the
  insertion walk (src/port/engine_posix.c:158) and of the firing pass
  (src/port/engine_posix.c:200-201).

## Left out

- Threads, the mutex and the wake-up semaphore of both ports, including `engine_thread`'s timed wait, the `timespec` and errno handling, and start/stop. Only the "signal requested" flag is kept.
- `engine_get_timestamp` is replaced by the parameter `now`, since it reads the clock and converts with floating-point division.
- TimerList.FirePass: reads the clock once per pass, whereas the source re-reads it after each callback; a callback's own queueing and cancelling during the pass (it runs before the head is unlinked) is not modelled.
- TimerList.InsertEvent: does not model the extra `start->next` read after each step of the walk (src/port/engine_posix.c:163), which dereferences null when the node is appended at the tail.
- TimerList.RemoveEvent: requires a non-empty list to hold the node, because the source's walk has no end-of-list check.
- PosixPort.EventCancel: requires the node to be pending. Cancelling after the node has fired walks off the list and frees the node twice in the source.
- PosixPort.EventCancel: the `uint64_t`/`time_t` comparison of expiry and clock is modelled on unbounded integers.
- The POSIX `engine_port_event_create` is reduced to the zeroed node `PosixPort.NewTimer`. The result of `malloc` is not checked there in the source; the Coral heap fallback dereferences the node before checking it (src/port/engine_coral.c:85-86). The model follows the later check in create, which yields null.
- Registry.FirstMatch: works on the already scanned entries. The `fscanf` line format, with its 127-character fields, is not modelled, and neither is opening or closing the file.
- `registry_int32_get` is left out: it is a `strtol` call on `read_string`'s result.
- The string-substitution callbacks, backup registers, heap and shell hooks, logging and assertions are left out: they are thin wrappers over libraries outside this model.
- CoralPool.FreeNode: requires a store node's count to be below 20, which is what the source asserts.
- CoralPort.EventQueue: requires a store node's count to be below 20 on the paths that free the node (a negative timeout or a refused schedule), which is what the source asserts there.
- CoralPort.QueueCallback: requires a store node's count to be below 20, which is what the source asserts.
- The scheduler internals of the Coral platform, and `engine_task_wait`'s cancel-wait loop, are parameters or left out; only its final assertion is modelled, by `CoralPool.DrainedStoreIsFull`.
- `main`'s option parsing, file loading and console loop are left out, being I/O.
- `src/port/engine_config.h` holds only configuration switches.
- Console.Out: requires a non-empty string, because on an empty one the source reads the byte before it.
- `FILENAME_MAX` is taken as 4096, glibc's value.
- Registry.StringGetAsWritten: the stray-write condition and the `length - 1` cut are stated only for values shorter than 2^32 characters. For longer ones `strlen`'s result wraps when it is stored in the `uint32_t` length, and the contract then says only that the copy reports the wrapped cut length.
- C strings are modelled as Dafny strings that stand for NUL-free byte strings, one byte per character. `strncpy`, `strncmp` and `strlen` stop at a NUL; the model would treat an embedded '\0' as an ordinary character. Buffer sizes count characters as bytes.
- The insertion comparison is modelled with its 32-bit truncation. The ordering lemmas therefore hold under the condition that expiry differences fit in 32 bits (`InWindow`, `Close`).

## Findings

| source | as written | input that shows it | evidently intended | confidence | as-written member | corrected member |
|---|---|---|---|---|---|---|
| src/port/engine_posix.c:567-576 | the terminator goes to `value[len-1]`, overwriting the last copied character; for `len == 0` that index wraps to the largest `uint32_t`, and a zero `length` wraps the cut `length - 1` to 4294967295 | entry `name=abc`, buffer of 16: 3 is reported but "ab" is left; a blank value, or a buffer of size 0, writes outside the buffer | terminator at `value[len]`, inside the buffer thanks to the `length - 1` cut, and nothing written into a zero-sized buffer | high, not executed | Registry.StringGetAsWrittenLosesLast | Registry.StringGet |
| test/main.c:188-196 | the backward search for '.' runs over the whole path, directories included | machine file "../m" gives "..cfg", "dir.d/m" gives "dir.cfg" | replace only the base name's extension: "../m.cfg", "dir.d/m.cfg" | medium, not executed | Console.ConfigDotInDirectory | Console.ConfigFileCorrected |

=== FILE: console.dfy ===
/** The console helpers of the demo front end (test/main.c): the derivation
    of the registry file name from the command line, and the two output
    callbacks `list` and `out`. Output is returned as text instead of being
    printed. */
module Console {
  import opened Optional

  /** `FILENAME_MAX` of the C library (glibc's value). */
  const FilenameMax: nat := 4096

  /** `strncpy` into a zeroed buffer of `n + 1` characters. */
  function Truncate(s: string, n: nat): (r: string)
    ensures r <= s
    ensures |r| == if |s| <= n then |s| else n
  {
    if |s| <= n then s else s[..n]
  }

  /** The backwards scan of get_config_file: starting at the terminator, step
      back while not at the start and not on a '.'. */
  function DotScan(s: string, e: nat): (r: nat)
    requires e <= |s|
    ensures r <= e
    ensures r == 0 || (1 <= r < |s| && s[r] == '.')
    ensures forall j :: r < j < e ==> s[j] != '.'
    ensures e < |s| && s[e] == '.' ==> r == e
  {
    if e > 0 && (e == |s| || s[e] != '.') then DotScan(s, e - 1) else e
  }

  /** Where the extension begins: the index of the last '.' if it is not the
      first character, else 0 (nothing is cut). */
  function ExtensionStart(name: string): (e: nat)
    ensures e < |name| || e == 0
    ensures e > 0 ==> name[e] == '.' && forall j :: e < j < |name| ==> name[j] != '.'
    ensures e == 0 ==> forall j :: 1 <= j < |name| ==> name[j] != '.'
  {
    DotScan(name, |name|)
  }

  /** get_config_file: an explicit `--config` path is used as given (cut to
      `FILENAME_MAX - 1` characters); otherwise the machine file name, cut
      the same way, loses everything from its last '.' on when that '.' is
      past the first character, and gets ".cfg"; with neither the result is
      empty. */
  function ConfigFile(config: Option<string>, file: Option<string>): (r: string)
    ensures config.Some? ==> r == Truncate(config.value, FilenameMax - 1)
    ensures config.None? && file.None? ==> r == ""
    ensures config.None? && file.Some? ==>
      var name := Truncate(file.value, FilenameMax - 1);
      exists e :: 0 <= e <= |name| && r == name[..e] + ".cfg"
                  && (e < |name| ==> 1 <= e && name[e] == '.' && forall j :: e < j < |name| ==> name[j] != '.')
                  && (e == |name| ==> forall j :: 1 <= j < |name| ==> name[j] != '.')
    ensures |r| <= FilenameMax - 1 + 4
  {
    if config.Some? then Truncate(config.value, FilenameMax - 1)
    else if file.Some? then
      var name := Truncate(file.value, FilenameMax - 1);
      var e := ExtensionStart(name);
      var cut := if e > 0 then e else |name|;
      assert name[..|name|] == name;
      name[..cut] + ".cfg"
    else ""
  }

  /** When the last '.' of the cut machine file name is past its first
      character, everything from it on is replaced by ".cfg". */
  lemma {:induction false} ConfigDropsLastExtension(file: string, k: nat)
    requires var name := Truncate(file, FilenameMax - 1);
      1 <= k < |name| && name[k] == '.' && forall j :: k < j < |name| ==> name[j] != '.'
    ensures ConfigFile(None, Some(file)) == Truncate(file, FilenameMax - 1)[..k] + ".cfg"
  {
    assert ExtensionStart(Truncate(file, FilenameMax - 1)) == k;
  }

  /** A cut name without a '.' past its first character is kept whole. */
  lemma {:induction false} ConfigKeepsPlainName(file: string)
    requires var name := Truncate(file, FilenameMax - 1);
      forall j :: 1 <= j < |name| ==> name[j] != '.'
    ensures ConfigFile(None, Some(file)) == Truncate(file, FilenameMax - 1) + ".cfg"
  {
  }

  lemma ConfigExamples()
    ensures ConfigFile(None, Some("m.sm")) == "m.cfg"
    ensures ConfigFile(None, Some(".sm")) == ".sm.cfg"
    ensures ConfigFile(None, Some("machine")) == "machine.cfg"
    ensures ConfigFile(Some("reg.txt"), Some("m.sm")) == "reg.txt"
    ensures ConfigFile(None, None) == ""
  {
    ConfigDropsLastExtension("m.sm", 1);
    ConfigKeepsPlainName(".sm");
    ConfigKeepsPlainName("machine");
  }

  /** The scan looks at the whole path, directories included: an extensionless
      file under "../" yields "..cfg", and one under "dir.d/" yields "dir.cfg". */
  lemma ConfigDotInDirectory()
    ensures ConfigFile(None, Some("../m")) == "..cfg"
    ensures ConfigFile(None, Some("dir.d/m")) == "dir.cfg"
  {
    ConfigDropsLastExtension("../m", 1);
    ConfigDropsLastExtension("dir.d/m", 3);
  }

  /** Where the base name (after the last '/') begins. */
  function BaseStart(path: string): (b: nat)
    ensures b <= |path|
    ensures b > 0 ==> path[b - 1] == '/'
    ensures forall j :: b <= j < |path| ==> path[j] != '/'
  {
    if |path| == 0 || path[|path| - 1] == '/' then |path|
    else BaseStart(path[..|path| - 1])
  }

  /** Where the corrected derivation cuts the path: at the last '.' of the
      base name if that is past the base name's first character, else at the
      end. */
  function BaseCut(name: string): (e: nat)
    ensures BaseStart(name) <= e <= |name|
    ensures e < |name| ==> e > BaseStart(name) && name[e] == '.'
                           && forall j :: e < j < |name| ==> name[j] != '.'
    ensures e == |name| ==> forall j :: BaseStart(name) < j < |name| ==> name[j] != '.'
  {
    var b := BaseStart(name);
    var base := name[b..];
    var e := ExtensionStart(base);
    if e > 0 then
      assert base[e] == name[b + e];
      assert forall j :: b + e < j < |name| ==> name[j] == base[j - b];
      b + e
    else
      assert forall j :: b < j < |name| ==> name[j] == base[j - b];
      |name|
  }

  /** get_config_file with the extension searched for in the base name only:
      the directory part is always kept, and a base name without a '.' past
      its first character is kept whole. */
  function ConfigFileCorrected(config: Option<string>, file: Option<string>): (r: string)
    ensures config.Some? ==> r == Truncate(config.value, FilenameMax - 1)
    ensures config.None? && file.None? ==> r == ""
    ensures config.None? && file.Some? ==>
      var name := Truncate(file.value, FilenameMax - 1);
      var b := BaseStart(name);
      exists e :: b <= e <= |name| && r == name[..e] + ".cfg"
                  && (e < |name| ==> e > b && name[e] == '.' && forall j :: e < j < |name| ==> name[j] != '.')
                  && (e == |name| ==> forall j :: b < j < |name| ==> name[j] != '.')
    ensures |r| <= FilenameMax - 1 + 4
  {
    if config.Some? then Truncate(config.value, FilenameMax - 1)
    else if file.Some? then
      var name := Truncate(file.value, FilenameMax - 1);
      name[..BaseCut(name)] + ".cfg"
    else ""
  }

  /** The corrected derivation keeps the directories of the path. */
  lemma ConfigCorrectedExamples()
    ensures ConfigFileCorrected(None, Some("../m")) == "../m.cfg"
    ensures ConfigFileCorrected(None, Some("dir.d/m")) == "dir.d/m.cfg"
    ensures ConfigFileCorrected(None, Some("dir/m.sm")) == "dir/m.cfg"
  {
    assert BaseStart("../m") == 3;
    assert BaseStart("dir.d/m") == 6;
    assert "dir/m.sm"[3] == '/';
    assert BaseStart("dir/m.sm") == 4;
    assert "dir/m.sm"[4..] == "m.sm";
    assert ExtensionStart("m.sm") == 1;
    assert BaseCut("dir/m.sm") == 5;
  }

  // ---------------------------------------------------------------------
  // The `list` callback (lines 206-218).

  /** `starter_list_t`, in the order of the source's `type_names` table. */
  datatype ListType = TypeNone | TypeActions | TypeEvents | TypeConstants

  /** The header titles, spelled as in the source. */
  function TypeName(t: ListType): string {
    match t
    case TypeNone => ""
    case TypeActions => "Actions"
    case TypeEvents => "Events"
    case TypeConstants => "Constatnts"
  }

  /** `%-24s`: left-justified in a field of 24 characters. */
  function PadRight(s: string, width: nat): (r: string)
    ensures s <= r
    ensures |r| == if |s| >= width then |s| else width
    ensures forall i :: |s| <= i < |r| ==> r[i] == ' '
  {
    if |s| >= width then s else s + seq(width - |s|, _ => ' ')
  }

  /** What one call of `list` prints, and the type it remembers. */
  datatype Listed = Listed(header: Option<string>, line: string, last: ListType)

  /** list: print a section header when the type differs from the previous
      call's, then the entry line. */
  function List(last: ListType, t: ListType, name: string, description: string): (r: Listed)
    ensures r.header.Some? <==> t != last
    ensures r.header.Some? ==> r.header.value == TypeName(t) + ":\r\n"
    ensures r.last == t
    ensures r.line == "    " + PadRight(name, 24) + " " + description + "\r\n"
  {
    var header := if t != last then Some(TypeName(t) + ":\r\n") else None;
    Listed(header, "    " + PadRight(name, 24) + " " + description + "\r\n", t)
  }

  datatype Item = Item(t: ListType, name: string, description: string)

  /** A run of `list` calls starting from the remembered type `last`. */
  function ListAll(last: ListType, items: seq<Item>): (r: seq<Listed>)
    ensures |r| == |items|
    decreases |items|
  {
    if |items| == 0 then []
    else
      var first := List(last, items[0].t, items[0].name, items[0].description);
      [first] + ListAll(first.last, items[1..])
  }

  /** Over a run of calls a header is printed exactly where the type changes
      (the first call compared with the static's initial `typeNone`). */
  lemma {:induction false} HeadersAtTypeChanges(last: ListType, items: seq<Item>)
    ensures forall i :: 0 <= i < |items| ==>
      (ListAll(last, items)[i].header.Some? <==> items[i].t != (if i == 0 then last else items[i - 1].t))
    decreases |items|
  {
    if |items| > 0 {
      var r := ListAll(last, items);
      var first := List(last, items[0].t, items[0].name, items[0].description);
      HeadersAtTypeChanges(first.last, items[1..]);
      forall i | 1 <= i < |items|
        ensures r[i].header.Some? <==> items[i].t != items[i - 1].t
      {
        assert r[i] == ListAll(first.last, items[1..])[i - 1];
        assert items[1..][i - 1] == items[i];
        if i > 1 { assert items[1..][i - 2] == items[i - 1]; }
      }
    }
  }

  // ---------------------------------------------------------------------
  // The `out` callback (lines 220-228).

  /** out: print the string and end the line with "\r\n" unless it already
      ends in '\n'. */
  function Out(s: string): (r: string)
    requires |s| > 0
    ensures s <= r
    ensures r[|r| - 1] == '\n'
    ensures |r| == |s| <==> s[|s| - 1] == '\n'
    ensures |r| != |s| ==> r == s + "\r\n"
  {
    if s[|s| - 1] != '\n' then s + "\r\n" else s
  }

  /** Output of `out` already ends its line, so passing it through `out`
      again adds nothing. */
  lemma OutIdempotent(s: string)
    requires |s| > 0
    ensures Out(Out(s)) == Out(s)
  {
    var r := Out(s);
    assert r[|r| - 1] == '\n';
  }
}

=== FILE: coral_pool.dfy ===
/** The Coral port's bounded event store (src/port/engine_coral.c, lines
    35-150): twenty statically allocated nodes threaded onto a free stack,
    with the heap as the fallback once the stack is empty. A node records
    where it came from (the ENGINE_TASK_HEAP_STORE flag) so that freeing it
    takes the same path back. */
module CoralPool {
  import opened Optional

  const StoreCount: nat := 20

  /** An index into `_engine_task_store_heap`. */
  type Slot = i: nat | i < StoreCount

  type HeapId = nat

  /** A node: one of the store's slots (flag set) or a heap allocation (flag clear). */
  datatype Node = Pool(slot: Slot) | Heap(id: HeapId)

  /** `_engine_task_store` (head first), `_engine_task_store_cnt` (-1 until
      the store is filled) and `_engine_task_store_alloc` (nodes handed out
      and not yet freed). */
  datatype Store = Store(free: seq<Slot>, count: int, outstanding: int)

  /** The statics before engine_task_init. */
  const Unfilled: Store := Store([], -1, 0)

  /** Every slot, in the order the fill loop leaves them on the stack: each
      slot is pushed on the head, so the last one pushed comes out first. */
  function FillOrder(n: nat): (r: seq<Slot>)
    requires n <= StoreCount
    ensures |r| == n
    ensures forall i :: 0 <= i < n ==> r[i] == n - 1 - i
  {
    if n == 0 then [] else [(n - 1) as Slot] + FillOrder(n - 1)
  }

  ghost predicate NoDuplicates(s: seq<Slot>) {
    forall i, j :: 0 <= i < j < |s| ==> s[i] != s[j]
  }

  /** The pool-origin nodes currently handed out. */
  function HeldSlots(held: set<Node>): set<Slot> {
    set n | n in held && n.Pool? :: n.slot
  }

  /** The store's invariant with respect to the nodes callers hold: the
      count is the stack's length, no slot is on the stack twice, and every
      slot is either on the stack or held, never both. */
  ghost predicate Valid(s: Store, held: set<Node>) {
    && s.count == |s.free|
    && NoDuplicates(s.free)
    && (forall i :: 0 <= i < |s.free| ==> Pool(s.free[i]) !in held)
    && (forall slot: Slot :: slot in s.free || Pool(slot) in held)
  }

  /** engine_task_init: fill the stack only while the count is negative. */
  function Init(s: Store): (r: Store)
    ensures s.count >= 0 ==> r == s
    ensures s.count < 0 ==> r.count == StoreCount && r.outstanding == s.outstanding
    ensures s.count < 0 ==> forall slot: Slot :: slot in r.free
  {
    if s.count < 0 then
      var fill := FillOrder(StoreCount);
      forall slot: Slot
        ensures slot in fill
      {
        assert fill[StoreCount - 1 - slot] == slot;
      }
      Store(fill + s.free, StoreCount, s.outstanding)
    else s
  }

  /** The result of engine_task_alloc: the new store, the node (None when
      the heap fallback fails) and whether the caller is made to sleep. */
  datatype Alloc = Alloc(store: Store, node: Option<Node>, throttle: bool)

  /** engine_task_alloc: pop the stack's head if there is one, else fall
      back to the heap (`heapId` is what the heap returns). The outstanding
      count rises either way; the caller sleeps whenever the free count is
      at most 2 afterwards. */
  function AllocNode(s: Store, heapId: Option<HeapId>): (r: Alloc)
    ensures r.store.outstanding == s.outstanding + 1
    ensures |s.free| > 0 ==> r.node == Some(Pool(s.free[0])) && r.store.free == s.free[1..]
                             && r.store.count == s.count - 1
    ensures |s.free| == 0 ==> r.store.free == s.free && r.store.count == s.count
                              && r.node == (if heapId.Some? then Some(Heap(heapId.value)) else None)
    ensures r.throttle <==> r.store.count <= 2
  {
    if |s.free| > 0 then
      var count := s.count - 1;
      Alloc(Store(s.free[1..], count, s.outstanding + 1), Some(Pool(s.free[0])), count <= 2)
    else
      var node := match heapId case Some(id) => Some(Heap(id)) case None => None;
      Alloc(s.(outstanding := s.outstanding + 1), node, s.count <= 2)
  }

  /** engine_task_free: a store node goes back on the stack's head (the
      source asserts the count was below 20), a heap node goes back to the
      heap; the outstanding count drops either way. */
  function FreeNode(s: Store, n: Node): (r: Store)
    requires n.Pool? ==> s.count < StoreCount
    ensures r.outstanding == s.outstanding - 1
    ensures n.Pool? ==> r.free == [n.slot] + s.free && r.count == s.count + 1
    ensures n.Heap? ==> r.free == s.free && r.count == s.count
  {
    match n
    case Pool(slot) => Store([slot] + s.free, s.count + 1, s.outstanding - 1)
    case Heap(_) => s.(outstanding := s.outstanding - 1)
  }

  /** Filling the unfilled store makes it valid with nothing held, and a
      second engine_task_init changes nothing. */
  lemma InitValid()
    ensures Valid(Init(Unfilled), {})
    ensures Init(Init(Unfilled)) == Init(Unfilled)
  {
    var r := Init(Unfilled);
    assert r.free == FillOrder(StoreCount);
  }

  /** The slots of a duplicate-free stack are as many as its entries. */
  lemma {:induction false} DistinctSlotsCount(s: seq<Slot>)
    requires NoDuplicates(s)
    ensures |set i | 0 <= i < |s| :: s[i]| == |s|
  {
    if |s| > 0 {
      var rest := s[1..];
      DistinctSlotsCount(rest);
      var a := set i | 0 <= i < |s| :: s[i];
      var b := set i | 0 <= i < |rest| :: rest[i];
      assert a == b + {s[0]} by {
        forall x | x in a ensures x in b + {s[0]} {
          var i :| 0 <= i < |s| && s[i] == x;
          if i > 0 { assert rest[i - 1] == x; }
        }
      }
      assert s[0] !in b;
    }
  }

  /** All slots, as a set. */
  function AllSlots(): set<Slot> {
    set i | 0 <= i < StoreCount :: FillOrder(StoreCount)[i]
  }

  lemma {:induction false} AllSlotsComplete()
    ensures |AllSlots()| == StoreCount
    ensures forall x: Slot :: x in AllSlots()
  {
    var f := FillOrder(StoreCount);
    forall x: Slot
      ensures x in AllSlots()
    {
      assert f[StoreCount - 1 - x] == x;
    }
    DistinctSlotsCount(f);
  }

  /** A set holding every slot has twenty elements. */
  lemma {:induction false} EverySlotSize(a: set<Slot>)
    requires forall x: Slot :: x in a
    ensures |a| == StoreCount
  {
    AllSlotsComplete();
    assert a == AllSlots();
  }

  /** Conservation: in a valid store the free count plus the number of store
      nodes held equals the store's size, so the count stays within 0..20. */
  lemma {:induction false} FreePlusHeldIsCapacity(s: Store, held: set<Node>)
    requires Valid(s, held)
    ensures s.count + |HeldSlots(held)| == StoreCount
    ensures 0 <= s.count <= StoreCount
  {
    var onStack := set i | 0 <= i < |s.free| :: s.free[i];
    var h := HeldSlots(held);
    DistinctSlotsCount(s.free);
    forall x | x in onStack
      ensures x !in h
    {
      var i :| 0 <= i < |s.free| && s.free[i] == x;
      assert Pool(x) !in held;
    }
    forall x: Slot
      ensures x in onStack + h
    {
      if x in s.free {
        var i :| 0 <= i < |s.free| && s.free[i] == x;
      } else {
        assert Pool(x) in held;
      }
    }
    EverySlotSize(onStack + h);
    assert onStack !! h;
  }

  /** engine_task_wait's closing assertion: once every node is back, all
      twenty slots are on the stack. */
  lemma {:induction false} DrainedStoreIsFull(s: Store)
    requires Valid(s, {})
    ensures s.count == StoreCount
  {
    FreePlusHeldIsCapacity(s, {});
    assert HeldSlots({}) == {};
  }

  /** Allocation keeps the store valid: a store node handed out was not held
      and joins the held nodes; a heap node is handed out only when the stack
      is empty. */
  lemma {:induction false} AllocKeepsValid(s: Store, held: set<Node>, heapId: Option<HeapId>)
    requires Valid(s, held)
    requires heapId.Some? ==> Heap(heapId.value) !in held
    ensures var r := AllocNode(s, heapId);
      && (r.node.Some? ==> r.node.value !in held && Valid(r.store, held + {r.node.value}))
      && (r.node.None? ==> |s.free| == 0 && Valid(r.store, held))
      && (r.node.Some? && r.node.value.Heap? ==> |s.free| == 0)
  {
    var r := AllocNode(s, heapId);
    if |s.free| > 0 {
      var slot := s.free[0];
      var h2 := held + {Pool(slot)};
      forall i | 0 <= i < |r.store.free|
        ensures Pool(r.store.free[i]) !in h2
      {
        assert r.store.free[i] == s.free[i + 1];
      }
      forall x: Slot
        ensures x in r.store.free || Pool(x) in h2
      {
        if x in s.free && x != slot {
          var i :| 0 <= i < |s.free| && s.free[i] == x;
          assert r.store.free[i - 1] == x;
        }
      }
    }
  }

  /** Freeing a held node keeps the store valid without it; the source's
      assertion that the count is below 20 holds. */
  lemma {:induction false} FreeKeepsValid(s: Store, held: set<Node>, n: Node)
    requires Valid(s, held) && n in held
    ensures n.Pool? ==> s.count < StoreCount
    ensures n.Pool? ==> Valid(FreeNode(s, n), held - {n})
    ensures n.Heap? ==> Valid(FreeNode(s, n), held - {n})
  {
    if n.Pool? {
      FreePlusHeldIsCapacity(s, held);
      assert n.slot in HeldSlots(held);
      var r := FreeNode(s, n);
      assert n.slot !in s.free;
      forall i, j | 0 <= i < j < |r.free|
        ensures r.free[i] != r.free[j]
      {
        if i == 0 { assert r.free[j] == s.free[j - 1]; }
        else { assert r.free[i] == s.free[i - 1] && r.free[j] == s.free[j - 1]; }
      }
      forall i | 0 <= i < |r.free|
        ensures Pool(r.free[i]) !in held - {n}
      {
        if i > 0 { assert r.free[i] == s.free[i - 1]; }
      }
      forall x: Slot
        ensures x in r.free || Pool(x) in held - {n}
      {
        if x in s.free {
          var i :| 0 <= i < |s.free| && s.free[i] == x;
          assert r.free[i + 1] == x;
        }
      }
    }
  }

  /** Freeing a node straight after allocating it restores the store exactly:
      the same stack, count and outstanding count. */
  lemma AllocThenFreeRestores(s: Store, heapId: Option<HeapId>)
    requires |s.free| > 0 ==> s.count <= StoreCount
    ensures var r := AllocNode(s, heapId);
      r.node.Some? ==> FreeNode(r.store, r.node.value) == s
  {
    var r := AllocNode(s, heapId);
    if |s.free| > 0 {
      assert [s.free[0]] + s.free[1..] == s.free;
    }
  }
}

=== FILE: coral_port.dfy ===
/** The Coral port's timed-event entry points (src/port/engine_coral.c,
    lines 203-268). Scheduling is delegated to the platform's task queue,
    which is outside this model: what `svc_tasks_schedule` and
    `svc_tasks_cancel` return, the expiry `svc_task_expire` reports and the
    millisecond/tick conversions are parameters. */
module CoralPort {
  import opened Optional
  import opened CoralPool
  import opened EngineStatus

  /** ENGINE_EVENT_T of the Coral port, without the scheduler's task record:
      the node it lives in, the event and register it carries and the
      callback (by identity). */
  datatype Event = Event(node: Node, event: int, register: int, complete: nat)

  /** The arguments handed to `svc_tasks_schedule`. */
  datatype Request = Request(event: Event, parm: int, ticks: int)

  datatype Created = Created(store: Store, event: Option<Event>, throttle: bool)

  datatype Queued = Queued(status: Status, store: Store, request: Option<Request>)

  /** Why the task queue calls back: the task ran, or it was cancelled. */
  datatype Reason = Run | Cancelled

  datatype Completed = Completed(fired: bool, store: Store)

  /** engine_port_event_create: allocate a node and set its callback; null
      when allocation yields nothing. */
  function EventCreate(s: Store, heapId: Option<HeapId>, complete: nat): (r: Created)
    ensures r.event.None? <==> |s.free| == 0 && heapId.None?
    ensures r.event.Some? ==> r.event.value.complete == complete
    ensures r.event.Some? ==> Some(r.event.value.node) == AllocNode(s, heapId).node
    ensures r.store == AllocNode(s, heapId).store
    ensures r.throttle == AllocNode(s, heapId).throttle
  {
    var a := AllocNode(s, heapId);
    match a.node
    case None => Created(a.store, None, a.throttle)
    case Some(n) => Created(a.store, Some(Event(n, 0, 0, complete)), a.throttle)
  }

  /** engine_port_event_queue: a null event fails and frees nothing; a
      negative timeout, or a schedule the task queue refuses (`scheduled`
      false), frees the node and fails; otherwise the event is handed to the
      task queue, a zero timeout as zero ticks. */
  function EventQueue(s: Store, ev: Option<Event>, eventId: int, reg: int, parm: int, timeout: int,
                      msToTicks: int -> int, scheduled: bool): (r: Queued)
    requires ev.Some? && ev.value.node.Pool? && (timeout < 0 || !scheduled) ==> s.count < StoreCount
    ensures ev.None? ==> r == Queued(Fail, s, None)
    ensures ev.Some? && timeout < 0 ==> r == Queued(Fail, FreeNode(s, ev.value.node), None)
    ensures ev.Some? && timeout >= 0 ==>
      && r.request.Some?
      && r.request.value.event == ev.value.(event := eventId, register := reg)
      && r.request.value.parm == parm
      && (timeout == 0 ==> r.request.value.ticks == 0)
      && (timeout > 0 ==> r.request.value.ticks == msToTicks(timeout))
      && (scheduled ==> r.status == Ok && r.store == s)
      && (!scheduled ==> r.status == Fail && r.store == FreeNode(s, ev.value.node))
  {
    match ev
    case None => Queued(Fail, s, None)
    case Some(e) =>
      if timeout < 0 then Queued(Fail, FreeNode(s, e.node), None)
      else
        var req := Request(e.(event := eventId, register := reg), parm,
                           if timeout != 0 then msToTicks(timeout) else 0);
        if scheduled then Queued(Ok, s, Some(req))
        else Queued(Fail, FreeNode(s, e.node), Some(req))
  }

  /** port_event_queue_callback: the callback fires only when the task ran;
      either way the node goes back where it came from. */
  function QueueCallback(s: Store, e: Event, reason: Reason): (r: Completed)
    requires e.node.Pool? ==> s.count < StoreCount
    ensures r.fired <==> reason == Run
    ensures r.store == FreeNode(s, e.node)
  {
    Completed(reason == Run, FreeNode(s, e.node))
  }

  /** engine_port_event_cancel: 0 when the task queue refuses the cancel or
      the stored expiry is 0; otherwise the expiry converted to milliseconds. */
  function EventCancel(expireTicks: int, cancelOk: bool, ticksToMs: int -> int): (r: int)
    ensures !cancelOk || expireTicks == 0 ==> r == 0
    ensures cancelOk && expireTicks != 0 ==> r == ticksToMs(expireTicks)
  {
    var expire := if cancelOk then expireTicks else 0;
    if expire != 0 then ticksToMs(expire) else 0
  }

  /** Pool conservation over an event's life: create it, queue it, and let
      the task queue call back (run or cancelled) — or fail the queueing —
      and the store is exactly as it was before the create. */
  lemma {:induction false} EventLifeRestoresStore(s: Store, heapId: Option<HeapId>, complete: nat,
                                                  eventId: int, reg: int, parm: int, timeout: int,
                                                  msToTicks: int -> int, scheduled: bool, reason: Reason)
    requires |s.free| > 0 ==> s.count <= StoreCount
    ensures var c := EventCreate(s, heapId, complete);
      c.event.Some? ==>
        var q := EventQueue(c.store, c.event, eventId, reg, parm, timeout, msToTicks, scheduled);
        && (q.status == Fail ==> q.store == s)
        && (q.status == Ok ==> QueueCallback(q.store, q.request.value.event, reason).store == s)
  {
    AllocThenFreeRestores(s, heapId);
  }

  /** With all twenty store nodes handed out, the next event comes from the
      heap, and the caller is throttled because no slot is left. */
  lemma {:induction false} OverflowFallsBackToHeap(s: Store, held: set<Node>, heapId: HeapId)
    requires Valid(s, held) && |HeldSlots(held)| == StoreCount
    ensures EventCreate(s, Some(heapId), 0).event.Some?
    ensures EventCreate(s, Some(heapId), 0).event.value.node == Heap(heapId)
    ensures EventCreate(s, Some(heapId), 0).throttle
  {
    FreePlusHeldIsCapacity(s, held);
  }
}

=== FILE: ints.dfy ===
/** Fixed-width integer conversions of the C source, written out explicitly.
    Dafny integers are unbounded; the ports compute with `int32_t`, `uint32_t`
    and a 64-bit `time_t`, and a few casts between them matter to the model. */
module Ints {

  const TwoTo31: int := 0x8000_0000
  const TwoTo32: int := 0x1_0000_0000

  type Uint32 = x: int | 0 <= x < TwoTo32

  /** True when `x` is representable as an `int32_t`. */
  predicate IsInt32(x: int) {
    -TwoTo31 <= x < TwoTo31
  }

  /** The value a C cast to `int32_t` gives `x`: two's-complement wrap-around. */
  function ToInt32(x: int): (r: int)
    ensures IsInt32(r)
    ensures IsInt32(x) ==> r == x
    ensures exists k: int :: x == r + k * TwoTo32
  {
    var r := (x + TwoTo31) % TwoTo32 - TwoTo31;
    assert x == r + ((x + TwoTo31) / TwoTo32) * TwoTo32;
    r
  }

  /** The value a C cast to `uint32_t` gives `x`: reduction modulo 2^32. */
  function ToUint32(x: int): (r: Uint32)
    ensures 0 <= x < TwoTo32 ==> r == x
    ensures exists k: int :: x == r + k * TwoTo32
  {
    var r := x % TwoTo32;
    assert x == r + (x / TwoTo32) * TwoTo32;
    r
  }
}

=== FILE: optional.dfy ===
/** A value that may be absent: the model of a C pointer that may be null. */
module Optional {
  datatype Option<+T> = None | Some(value: T)
}

=== FILE: posix_port.dfy ===
/** The POSIX port's timed-event entry points and its small pieces of state
    (src/port/engine_posix.c). The clock read `engine_get_timestamp()` is the
    parameter `now` (milliseconds); the wake-up semaphore is the `signal` flag. */
module PosixPort {
  import opened Ints
  import opened TimerList
  import opened Optional
  import opened EngineStatus

  datatype QueueResult = QueueResult(status: Status, list: seq<Timer>, signal: bool)

  datatype CancelResult = CancelResult(remaining: int, list: seq<Timer>, signal: bool)

  /** The node as engine_port_event_queue fills it in before linking it. */
  function Armed(task: Timer, event: int, reg: int, parm: int, expire: int): Timer {
    task.(event := event, register := reg, parm := parm, expire := expire)
  }

  /** engine_port_event_queue: a negative timeout fails and releases the node
      without touching the list; otherwise the node is armed to expire
      `timeout` milliseconds from now and linked into the list. */
  function EventQueue(list: seq<Timer>, task: Timer, event: int, reg: int, parm: int,
                      timeout: int, now: int): (r: QueueResult)
    ensures timeout < 0 ==> r.status == Fail && r.list == list && !r.signal
    ensures timeout >= 0 ==> r.status == Ok
    ensures timeout >= 0 ==>
      var armed := Armed(task, event, reg, parm, now + timeout);
      && multiset(r.list) == multiset(list) + multiset{armed}
      && (exists k :: 0 <= k <= |list| && r.list == list[..k] + [armed] + list[k..]
                      && (forall i :: 0 <= i < k ==> NotBefore(armed, list[i]))
                      && (k < |list| ==> !NotBefore(armed, list[k])))
      && (r.signal <==> |list| == 0 || !NotBefore(armed, list[0]))
      && (r.signal ==> r.list[0] == armed)
  {
    if timeout < 0 then QueueResult(Fail, list, false)
    else
      var armed := Armed(task, event, reg, parm, now + timeout);
      InsertAddsOneNode(list, armed);
      var m := InsertEvent(list, armed);
      QueueResult(Ok, m.list, m.signal)
  }

  /** How long before `expire` the clock reads `now`, as the source returns it:
      the difference truncated to `uint32_t` and returned as `int32_t`, or 0
      once the node is due. */
  function Remaining(expire: int, now: int): (r: int)
    ensures expire <= now ==> r == 0
    ensures now < expire && expire - now < TwoTo31 ==> r == expire - now
  {
    if expire > now then ToInt32(ToUint32(expire - now)) else 0
  }

  /** engine_port_event_cancel: report the time left and unlink the node.
      The node must still be pending: after it has fired, the source walks
      off the end of the list. */
  function EventCancel(list: seq<Timer>, id: NodeId, now: int): (r: CancelResult)
    requires HasId(list, id)
    ensures |r.list| == |list| - 1
    ensures r.signal <==> list[0].id == id
    ensures exists i :: 0 <= i < |list| && list[i].id == id
                        && r.list == list[..i] + list[i + 1..]
                        && r.remaining == Remaining(list[i].expire, now)
  {
    var n := list[IndexOf(list, id)];
    var m := RemoveEvent(list, id);
    CancelResult(Remaining(n.expire, now), m.list, m.signal)
  }

  /** A node queued at `t0` with timeout `d`, cancelled at `now >= t0`, reports
      at most `d` milliseconds left, more than 0 exactly when it is not yet
      due, and is no longer pending afterwards. */
  lemma CancelReportsAtMostTimeout(list: seq<Timer>, task: Timer, event: int, reg: int, parm: int,
                                  d: int, t0: int, now: int)
    requires 0 <= d < TwoTo31 && t0 <= now
    requires UniqueIds(list) && !HasId(list, task.id)
    ensures var q := EventQueue(list, task, event, reg, parm, d, t0);
      && HasId(q.list, task.id)
      && var c := EventCancel(q.list, task.id, now);
      && 0 <= c.remaining <= d
      && (c.remaining > 0 <==> now < t0 + d)
      && !HasId(c.list, task.id)
  {
    var armed := Armed(task, event, reg, parm, t0 + d);
    var q := EventQueue(list, task, event, reg, parm, d, t0);
    QueuedArmedUnique(list, task, event, reg, parm, d, t0);
    IndexOfUnique(q.list, armed);
    var c := EventCancel(q.list, task.id, now);
    var i := IndexOf(q.list, task.id);
    assert c.remaining == Remaining(armed.expire, now);
    RemoveKeepsOthers(q.list, task.id);
  }

  /** Scheduling a node not yet linked keeps identities unique and links it. */
  lemma QueuedArmedUnique(list: seq<Timer>, task: Timer, event: int, reg: int, parm: int,
                          d: int, t0: int)
    requires 0 <= d && UniqueIds(list) && !HasId(list, task.id)
    ensures var q := EventQueue(list, task, event, reg, parm, d, t0);
      UniqueIds(q.list) && Armed(task, event, reg, parm, t0 + d) in multiset(q.list)
  {
    var armed := Armed(task, event, reg, parm, t0 + d);
    InsertKeepsIdsUnique(list, armed);
    InsertAddsOneNode(list, armed);
  }

  /** A fresh node as engine_port_event_create leaves it: zeroed, with only
      the callback set. */
  function NewTimer(id: NodeId, complete: nat): Timer {
    Timer(id, 0, 0, 0, 0, complete)
  }

  /** The list after scheduling, at time 0, nodes 1, 2 and 3 with delays
      50, 10 and 30 ms. */
  function ThreeQueued(): seq<Timer> {
    var l1 := EventQueue([], NewTimer(1, 0), 0, 0, 0, 50, 0).list;
    var l2 := EventQueue(l1, NewTimer(2, 0), 0, 0, 0, 10, 0).list;
    EventQueue(l2, NewTimer(3, 0), 0, 0, 0, 30, 0).list
  }

  /** engine_port_event_queue with a non-negative timeout links the armed node. */
  lemma QueueLinksArmed(list: seq<Timer>, task: Timer, event: int, reg: int, parm: int,
                        timeout: int, now: int)
    requires timeout >= 0
    ensures var armed := Armed(task, event, reg, parm, now + timeout);
      EventQueue(list, task, event, reg, parm, timeout, now).list
        == list[..InsertIndex(list, armed)] + [armed] + list[InsertIndex(list, armed)..]
  {
    InsertAtIndex(list, Armed(task, event, reg, parm, now + timeout));
  }

  /** The insertion walk stops at once in front of a later head. */
  lemma IndexFront(list: seq<Timer>, t: Timer)
    requires |list| > 0 && 0 <= t.expire < list[0].expire < TwoTo31
    ensures InsertIndex(list, t) == 0
  {
    assert ToInt32(t.expire - list[0].expire) == t.expire - list[0].expire;
  }

  /** Queueing `task` with delay `d` at time 0 in front of a list whose head
      expires later. */
  lemma QueueBefore(list: seq<Timer>, task: Timer, d: int)
    requires 0 <= d && |list| > 0 && 0 <= d < list[0].expire < TwoTo31
    ensures EventQueue(list, task, 0, 0, 0, d, 0).list == [Armed(task, 0, 0, 0, d)] + list
  {
    var armed := Armed(task, 0, 0, 0, d);
    IndexFront(list, armed);
    QueueLinksArmed(list, task, 0, 0, 0, d, 0);
    assert list[..0] + [armed] + list[0..] == [armed] + list;
  }

  /** The insertion walk steps over `n` and stops in front of `m`. */
  lemma IndexBetween(n: Timer, m: Timer, t: Timer)
    requires NotBefore(t, n) && !NotBefore(t, m)
    ensures InsertIndex([n, m], t) == 1
  {
    assert [n, m][1..] == [m];
  }

  /** A delay between the expiries of `n` and `m` puts the new node between them. */
  lemma ArmedBetween(n: Timer, m: Timer, task: Timer, d: int)
    requires 0 <= n.expire <= d < m.expire < TwoTo31
    ensures InsertIndex([n, m], Armed(task, 0, 0, 0, d)) == 1
  {
    assert ToInt32(d - n.expire) == d - n.expire;
    assert ToInt32(d - m.expire) == d - m.expire;
    IndexBetween(n, m, Armed(task, 0, 0, 0, d));
  }

  /** Queueing `task` with delay `d` at time 0 behind the node `n` and in
      front of `m`. */
  lemma QueueBetween(n: Timer, m: Timer, task: Timer, d: int)
    requires 0 <= n.expire <= d < m.expire < TwoTo31
    ensures EventQueue([n, m], task, 0, 0, 0, d, 0).list == [n, Armed(task, 0, 0, 0, d), m]
  {
    var a := Armed(task, 0, 0, 0, d);
    ArmedBetween(n, m, task, d);
    SpliceSecond(n, m, a);
    QueueLinksArmed([n, m], task, 0, 0, 0, d, 0);
  }

  lemma SpliceSecond(n: Timer, m: Timer, a: Timer)
    ensures [n, m][..1] + [a] + [n, m][1..] == [n, a, m]
  {
    assert [n, m][..1] == [n] && [n, m][1..] == [m];
  }

  /** Queueing `task` with delay `d` at time 0 on the empty list. */
  lemma QueueFirst(task: Timer, d: int)
    requires 0 <= d
    ensures EventQueue([], task, 0, 0, 0, d, 0).list == [Armed(task, 0, 0, 0, d)]
  {
    QueueLinksArmed([], task, 0, 0, 0, d, 0);
  }

  /** Three nodes scheduled at time 0 with delays 50, 10 and 30 ms are
      listed by expiry, whatever the order of queueing. */
  lemma ThreeQueuedInExpiryOrder()
    ensures ThreeQueued() == [Timer(2, 10, 0, 0, 0, 0), Timer(3, 30, 0, 0, 0, 0), Timer(1, 50, 0, 0, 0, 0)]
  {
    var t1, t2 := Timer(1, 50, 0, 0, 0, 0), Timer(2, 10, 0, 0, 0, 0);
    var l1 := EventQueue([], NewTimer(1, 0), 0, 0, 0, 50, 0).list;
    QueueFirst(NewTimer(1, 0), 50);
    assert l1 == [t1];
    var l2 := EventQueue(l1, NewTimer(2, 0), 0, 0, 0, 10, 0).list;
    QueueBefore(l1, NewTimer(2, 0), 10);
    assert l2 == [t2, t1];
    QueueBetween(t2, t1, NewTimer(3, 0), 30);
  }

  /** The firing pass over the list of ThreeQueued at 20 and at 50 ms. */
  lemma FireThree(t1: Timer, t2: Timer, t3: Timer)
    requires t1.expire == 50 && t2.expire == 10 && t3.expire == 30
    ensures FirePass([t2, t3, t1], 20) == Split([t2], [t3, t1])
    ensures FirePass([t2, t3, t1], 50) == Split([t2, t3, t1], [])
  {
    var l := [t2, t3, t1];
    assert l[1..] == [t3, t1] && [t3, t1][1..] == [t1] && [t1][1..] == [];
    FirePassStep(l, 20);
    FirePassStep([t3, t1], 20);
    FirePassStep(l, 50);
    FirePassStep([t3, t1], 50);
    FirePassStep([t1], 50);
    FirePassStep([], 50);
  }

  /** Three nodes scheduled at time 0 with delays 50, 10 and 30 ms fire in
      the order 10, 30, 50 once the clock reaches 50; at 20 only the first
      has fired. */
  lemma ThreeDelaysFireInOrder()
    ensures FirePass(ThreeQueued(), 20).fired == [Timer(2, 10, 0, 0, 0, 0)]
    ensures FirePass(ThreeQueued(), 50).fired
            == [Timer(2, 10, 0, 0, 0, 0), Timer(3, 30, 0, 0, 0, 0), Timer(1, 50, 0, 0, 0, 0)]
    ensures FirePass(ThreeQueued(), 50).rest == []
  {
    ThreeQueuedInExpiryOrder();
    FireThree(Timer(1, 50, 0, 0, 0, 0), Timer(2, 10, 0, 0, 0, 0), Timer(3, 30, 0, 0, 0, 0));
  }

  /** A node scheduled at time 0 with a 100 ms delay and cancelled at 40 ms
      reports 60 ms left and leaves the list empty. */
  lemma CancelAtFortyOfHundred()
    ensures var l := EventQueue([], NewTimer(7, 0), 0, 0, 0, 100, 0).list;
            && EventCancel(l, 7, 40).remaining == 60
            && EventCancel(l, 7, 40).list == []
  {
    var l := EventQueue([], NewTimer(7, 0), 0, 0, 0, 100, 0).list;
    assert l == [Timer(7, 100, 0, 0, 0, 0)];
  }

  // ---------------------------------------------------------------------
  // The bounded variable table (lines 58, 90, 363-385).

  const MaxVariables: nat := 100

  type VariableTable = s: seq<int> | |s| == MaxVariables witness seq(MaxVariables, _ => 0)

  datatype ReadResult = ReadOk(value: int) | ReadParm

  /** engine_port_variable_write: an index past the table is refused and
      leaves the table alone; otherwise only slot `idx` changes. */
  function VariableWrite(vars: VariableTable, idx: nat, val: int): (r: (Status, VariableTable))
    ensures idx >= MaxVariables ==> r.0 == Parm && r.1 == vars
    ensures idx < MaxVariables ==> r.0 == Ok && r.1[idx] == val
    ensures forall j :: 0 <= j < MaxVariables && j != idx ==> r.1[j] == vars[j]
  {
    if idx >= MaxVariables then (Parm, vars) else (Ok, vars[idx := val])
  }

  /** engine_port_variable_read: an index past the table is refused. */
  function VariableRead(vars: VariableTable, idx: nat): (r: ReadResult)
    ensures r.ReadParm? <==> idx >= MaxVariables
    ensures r.ReadOk? ==> r.value == vars[idx]
  {
    if idx >= MaxVariables then ReadParm else ReadOk(vars[idx])
  }

  /** A valid write is read back; a refused write changes no later read. */
  lemma {:induction false} ReadAfterWrite(vars: VariableTable, idx: nat, val: int, other: nat)
    ensures idx < MaxVariables ==> VariableRead(VariableWrite(vars, idx, val).1, idx) == ReadOk(val)
    ensures other != idx ==> VariableRead(VariableWrite(vars, idx, val).1, other) == VariableRead(vars, other)
  {
  }

  // ---------------------------------------------------------------------
  // Byte accounting of engine_port_malloc / engine_port_free (lines 101-102, 387-412).

  /** The two heaps of `portheap`. */
  datatype PortHeap = Machine | Parser

  /** `_engine_alloc[heap]` and `_engine_alloc_max[heap]`, both `uint32_t`. */
  datatype Usage = Usage(current: Uint32, peak: Uint32)

  datatype Accounts = Accounts(machine: Usage, parser: Usage) {
    function Of(heap: PortHeap): Usage {
      match heap
      case Machine => machine
      case Parser => parser
    }
    function With(heap: PortHeap, u: Usage): Accounts {
      match heap
      case Machine => this.(machine := u)
      case Parser => this.(parser := u)
    }
  }

  /** A block handed out by engine_port_malloc: the size it stores in the
      word before the returned address. */
  datatype Block = Block(size: Uint32)

  /** engine_port_malloc: when the underlying `malloc` succeeds (`mallocOk`),
      the heap's byte count rises by `size` (modulo 2^32, as `uint32_t`) and
      its high-water mark follows it up. */
  function Malloc(acc: Accounts, heap: PortHeap, size: Uint32, mallocOk: bool): (r: (Accounts, Option<Block>))
    ensures !mallocOk ==> r.0 == acc && r.1 == None
    ensures mallocOk ==> r.1 == Some(Block(size))
    ensures mallocOk ==> r.0.Of(heap).current == ToUint32(acc.Of(heap).current + size)
    ensures acc.Of(heap).current + size < TwoTo32 ==> mallocOk ==> r.0.Of(heap).current == acc.Of(heap).current + size
    ensures r.0.Of(heap).peak >= acc.Of(heap).peak
    ensures mallocOk ==> r.0.Of(heap).peak >= r.0.Of(heap).current
    ensures mallocOk ==> r.0.Of(heap).peak == acc.Of(heap).peak || r.0.Of(heap).peak == r.0.Of(heap).current
    ensures forall h :: h != heap ==> r.0.Of(h) == acc.Of(h)
  {
    if !mallocOk then (acc, None)
    else
      var u := acc.Of(heap);
      var current := ToUint32(u.current + size);
      var peak := if u.peak < current then current else u.peak;
      (acc.With(heap, Usage(current, peak)), Some(Block(size)))
  }

  /** engine_port_free: a null pointer is ignored; otherwise the size stored
      with the block is taken off the count of the heap named by the caller. */
  function Free(acc: Accounts, heap: PortHeap, mem: Option<Block>): (r: Accounts)
    ensures mem == None ==> r == acc
    ensures mem.Some? ==> r.Of(heap).current == ToUint32(acc.Of(heap).current - mem.value.size)
    ensures mem.Some? && mem.value.size <= acc.Of(heap).current ==>
              r.Of(heap).current == acc.Of(heap).current - mem.value.size
    ensures r.Of(heap).peak == acc.Of(heap).peak
    ensures forall h :: h != heap ==> r.Of(h) == acc.Of(h)
  {
    match mem
    case None => acc
    case Some(b) =>
      var u := acc.Of(heap);
      acc.With(heap, u.(current := ToUint32(u.current - b.size)))
  }

  /** The high-water mark bounds the count while every free returns a block
      no larger than what is counted. */
  ghost predicate PeakBounds(acc: Accounts) {
    acc.machine.current <= acc.machine.peak && acc.parser.current <= acc.parser.peak
  }

  /** Freeing a block on the heap it came from returns the count to its value
      before the allocation, even across 32-bit wrap-around, and the
      high-water mark keeps the allocation's peak. */
  lemma {:induction false} FreeUndoesMalloc(acc: Accounts, heap: PortHeap, size: Uint32)
    ensures var (a1, mem) := Malloc(acc, heap, size, true);
      && Free(a1, heap, mem).Of(heap).current == acc.Of(heap).current
      && Free(a1, heap, mem).Of(heap).peak >= acc.Of(heap).peak
      && forall h :: h != heap ==> Free(a1, heap, mem).Of(h) == acc.Of(h)
  {
    var c := acc.Of(heap).current;
    var (a1, mem) := Malloc(acc, heap, size, true);
    var c1 := a1.Of(heap).current;
    if c + size < TwoTo32 {
      assert c1 == c + size;
    } else {
      assert c1 == c + size - TwoTo32;
      assert c1 - size == c - TwoTo32;
    }
  }

  /** Allocation and a bounded free keep the high-water mark above the count. */
  lemma {:induction false} PeakBoundsPreserved(acc: Accounts, heap: PortHeap, size: Uint32,
                                               mallocOk: bool, mem: Option<Block>)
    requires PeakBounds(acc)
    requires mem.Some? ==> mem.value.size <= acc.Of(heap).current
    ensures PeakBounds(Malloc(acc, heap, size, mallocOk).0)
    ensures PeakBounds(Free(acc, heap, mem))
  {
    var m := Malloc(acc, heap, size, mallocOk).0;
    assert m.Of(Machine) == m.machine && m.Of(Parser) == m.parser;
    assert acc.Of(Machine) == acc.machine && acc.Of(Parser) == acc.parser;
    var f := Free(acc, heap, mem);
    assert f.Of(Machine) == f.machine && f.Of(Parser) == f.parser;
  }
}

=== FILE: registry.dfy ===
/** The registry reader of the POSIX port (src/port/engine_posix.c, lines
    511-582): a configuration file of `name=value` lines is searched for the
    first entry whose name starts with the key, and the entry's value is
    returned with surrounding whitespace stripped. The file is given as the
    sequence of entries the line scanner delivers, or None when it cannot be
    opened. */
module Registry {
  import opened Ints
  import opened Optional

  /** `_isspace`: only carriage return, line feed, tab and space. */
  predicate IsSpace(c: char) {
    c == '\r' || c == '\n' || c == '\t' || c == ' '
  }

  predicate AllSpace(s: string) {
    forall i :: 0 <= i < |s| ==> IsSpace(s[i])
  }

  /** Number of leading whitespace characters. */
  function LeadingSpace(s: string): (n: nat)
    ensures n <= |s|
    ensures AllSpace(s[..n])
    ensures n < |s| ==> !IsSpace(s[n])
  {
    if |s| == 0 || !IsSpace(s[0]) then 0
    else
      var n := 1 + LeadingSpace(s[1..]);
      assert forall i :: 1 <= i < n ==> s[..n][i] == s[1..][..n - 1][i - 1];
      n
  }

  /** Number of characters left once trailing whitespace is cut off. */
  function KeptBeforeSpace(s: string): (n: nat)
    ensures n <= |s|
    ensures AllSpace(s[n..])
    ensures n > 0 ==> !IsSpace(s[n - 1])
  {
    if |s| == 0 || !IsSpace(s[|s| - 1]) then |s|
    else
      var n := KeptBeforeSpace(s[..|s| - 1]);
      assert s[n..] == s[..|s| - 1][n..] + [s[|s| - 1]];
      n
  }

  /** The pointer walk `while (_isspace(*p)) p++`. */
  function SkipSpace(s: string): string {
    s[LeadingSpace(s)..]
  }

  /** Leading whitespace skipped, then trailing whitespace cut off, as
      read_string does with a matched value. */
  function Trim(s: string): (r: string)
    ensures exists i, j :: 0 <= i <= j <= |s| && r == s[i..j] && AllSpace(s[..i]) && AllSpace(s[j..])
    ensures |r| > 0 ==> !IsSpace(r[0]) && !IsSpace(r[|r| - 1])
  {
    var i := LeadingSpace(s);
    var t := s[i..];
    var n := KeptBeforeSpace(t);
    assert t[..n] == s[i..i + n];
    assert t[n..] == s[i + n..];
    t[..n]
  }

  /** A string with no whitespace at either end is its own trimming, so
      trimming twice is trimming once. */
  lemma TrimIdempotent(s: string)
    ensures Trim(Trim(s)) == Trim(s)
  {
    var r := Trim(s);
    assert LeadingSpace(r) == 0;
    assert KeptBeforeSpace(r) == |r|;
  }

  /** `strncmp(a, b, n) == 0` for C strings: the end of a sequence plays the
      terminating NUL. */
  predicate StrnEqual(a: string, b: string, n: nat)
    decreases n
  {
    if n == 0 then true
    else if |a| == 0 || |b| == 0 then |a| == 0 && |b| == 0
    else a[0] == b[0] && StrnEqual(a[1..], b[1..], n - 1)
  }

  /** Comparing no more characters than the key holds asks whether the
      first `n` characters of the key begin the name; comparing more asks for
      equality. */
  lemma {:induction false} StrnEqualMeansPrefix(a: string, b: string, n: nat)
    ensures n <= |b| ==> (StrnEqual(a, b, n) <==> b[..n] <= a)
    ensures n > |b| ==> (StrnEqual(a, b, n) <==> a == b)
    decreases n
  {
    if n > 0 && |a| > 0 && |b| > 0 {
      StrnEqualMeansPrefix(a[1..], b[1..], n - 1);
      if n <= |b| {
        assert b[..n] == [b[0]] + b[1..][..n - 1];
        assert a == [a[0]] + a[1..];
      } else {
        assert a == [a[0]] + a[1..] && b == [b[0]] + b[1..];
      }
    }
  }

  /** One line of the file, already split at its first '='. */
  datatype Entry = Entry(name: string, value: string)

  /** The test inside the scan loop: the name, after leading whitespace, is
      equal to the key in its first `len` characters. */
  predicate Matches(e: Entry, key: string, len: nat) {
    StrnEqual(SkipSpace(e.name), key, len)
  }

  /** The value of the first matching entry, trimmed. */
  function FirstMatch(entries: seq<Entry>, key: string, len: nat): (r: Option<string>)
    ensures r.None? <==> forall i :: 0 <= i < |entries| ==> !Matches(entries[i], key, len)
    ensures r.Some? ==> exists i :: 0 <= i < |entries| && Matches(entries[i], key, len)
                                    && r.value == Trim(entries[i].value)
                                    && forall j :: 0 <= j < i ==> !Matches(entries[j], key, len)
  {
    if |entries| == 0 then None
    else if Matches(entries[0], key, len) then Some(Trim(entries[0].value))
    else
      var r := FirstMatch(entries[1..], key, len);
      FirstMatchBehindHead(entries, key, len, r);
      r
  }

  /** What FirstMatch promises about the entries after a non-matching head
      holds for the whole sequence. */
  lemma FirstMatchBehindHead(entries: seq<Entry>, key: string, len: nat, r: Option<string>)
    requires |entries| > 0 && !Matches(entries[0], key, len)
    requires r.None? <==> forall i :: 0 <= i < |entries[1..]| ==> !Matches(entries[1..][i], key, len)
    requires r.Some? ==> exists i :: 0 <= i < |entries[1..]| && Matches(entries[1..][i], key, len)
                                     && r.value == Trim(entries[1..][i].value)
                                     && forall j :: 0 <= j < i ==> !Matches(entries[1..][j], key, len)
    ensures r.None? <==> forall i :: 0 <= i < |entries| ==> !Matches(entries[i], key, len)
    ensures r.Some? ==> exists i :: 0 <= i < |entries| && Matches(entries[i], key, len)
                                    && r.value == Trim(entries[i].value)
                                    && forall j :: 0 <= j < i ==> !Matches(entries[j], key, len)
  {
    if r.None? {
      forall i | 0 <= i < |entries|
        ensures !Matches(entries[i], key, len)
      {
        if i > 0 {
          assert entries[i] == entries[1..][i - 1];
        }
      }
    } else {
      var i :| 0 <= i < |entries[1..]| && Matches(entries[1..][i], key, len)
               && r.value == Trim(entries[1..][i].value)
               && forall j :: 0 <= j < i ==> !Matches(entries[1..][j], key, len);
      assert entries[i + 1] == entries[1..][i];
      forall j | 0 <= j < i + 1
        ensures !Matches(entries[j], key, len)
      {
        if j > 0 {
          assert entries[j] == entries[1..][j - 1];
        }
      }
    }
  }

  /** read_string: None when the file cannot be opened or no entry matches. */
  function ReadString(file: Option<seq<Entry>>, key: string, len: nat): (r: Option<string>)
    ensures file.None? ==> r.None?
    ensures file.Some? ==> r == FirstMatch(file.value, key, len)
  {
    match file
    case None => None
    case Some(entries) => FirstMatch(entries, key, len)
  }

  /** What registry_string_get leaves behind: nothing found (buffer
      untouched, 0 returned), the returned length and the string the buffer
      then holds, a write outside the buffer with the length returned, or (in
      the corrected version only) a zero-sized buffer left alone. */
  datatype Copy = NotFound | Copied(len: nat, text: string) | StrayWrite(len: nat) | NoRoom

  /** The length registry_string_get reports for a found value: `strlen`
      stored in a `uint32_t`, cut to `length - 1` in `uint32_t` arithmetic
      when it does not fit, so a zero `length` yields the largest `uint32_t`. */
  function CopyLength(value: string, length: Uint32): (n: Uint32)
    ensures length >= 1 ==> n <= |value| && n < length
    ensures |value| < length ==> n == |value|
    ensures 1 <= length <= |value| < TwoTo32 ==> n == length - 1
    ensures length == 0 ==> n == TwoTo32 - 1
  {
    var len := ToUint32(|value|);
    if len >= length then ToUint32(length - 1) else len
  }

  /** The copy of a found value `v` as registry_string_get writes it: after
      `strncpy(value, temp, len)` the terminator goes to `value[len-1]`, so
      the buffer holds one character fewer than reported. When `len` is 0 the
      index wraps to the largest `uint32_t`, and when `length` is 0 `len`
      itself wraps and the copy runs past the buffer: both write outside it. */
  function WrittenCopy(v: string, length: Uint32): (r: Copy)
    ensures r.Copied? || r.StrayWrite?
    ensures |v| < TwoTo32 ==> (r.StrayWrite? <==> length <= 1 || |v| == 0)
    ensures r.StrayWrite? ==> r.len == CopyLength(v, length)
    ensures r.Copied? ==> r.len == CopyLength(v, length) >= 1 && r.text == v[..r.len - 1]
  {
    var n := CopyLength(v, length);
    if n == 0 || length == 0 then StrayWrite(n) else Copied(n, v[..n - 1])
  }

  /** The copy of a found value `v` with the terminator stored at
      `value[len]`, which the `length - 1` cut keeps inside the buffer, and
      with a zero-sized buffer left alone. */
  function CorrectedCopy(v: string, length: Uint32): (r: Copy)
    ensures r.Copied? || r.NoRoom?
    ensures r.NoRoom? <==> length == 0
    ensures r.Copied? ==>
      && |r.text| == r.len < length
      && r.text <= v
      && (|v| < length ==> r.text == v)
      && (length <= |v| < TwoTo32 ==> r.len == length - 1)
  {
    if length == 0 then NoRoom
    else
      var n := CopyLength(v, length);
      Copied(n, v[..n])
  }

  /** registry_string_get as written: nothing is found exactly when the
      lookup fails; otherwise the reported length is the value's, cut to the
      buffer, and the buffer holds one character fewer, or the terminator
      lands outside the buffer when the buffer has at most one byte or the
      value is empty. */
  function StringGetAsWritten(file: Option<seq<Entry>>, id: string, length: Uint32): (r: Copy)
    ensures r.NotFound? <==> ReadString(file, id, |id|).None?
    ensures !r.NoRoom?
    ensures ReadString(file, id, |id|).Some? ==>
      var v := ReadString(file, id, |id|).value;
      && (|v| < TwoTo32 ==> (r.StrayWrite? <==> length <= 1 || |v| == 0))
      && (r.StrayWrite? ==> r.len == CopyLength(v, length))
      && (r.Copied? ==> r.len == CopyLength(v, length) >= 1 && r.text == v[..r.len - 1])
  {
    match ReadString(file, id, |id|)
    case None => NotFound
    case Some(v) => WrittenCopy(v, length)
  }

  /** registry_string_get corrected: the buffer holds the first `len`
      characters of the trimmed value, and `len` is reported; a zero-sized
      buffer is left alone. */
  function StringGet(file: Option<seq<Entry>>, id: string, length: Uint32): (r: Copy)
    ensures !r.StrayWrite?
    ensures r.NotFound? <==> ReadString(file, id, |id|).None?
    ensures r.NoRoom? <==> ReadString(file, id, |id|).Some? && length == 0
    ensures r.Copied? ==>
      var v := ReadString(file, id, |id|).value;
      && |r.text| == r.len < length
      && r.text <= v
      && (|v| < length ==> r.text == v)
      && (length <= |v| < TwoTo32 ==> r.len == length - 1)
  {
    match ReadString(file, id, |id|)
    case None => NotFound
    case Some(v) => CorrectedCopy(v, length)
  }

  /** The two copies of one found value: where the corrected copy leaves a
      non-empty text, the code as written reports the same length but leaves
      the text without its last character; where the corrected copy leaves
      nothing or has no room, the code as written writes outside the buffer. */
  lemma CopiesCompared(v: string, length: Uint32)
    ensures var g := CorrectedCopy(v, length);
      var w := WrittenCopy(v, length);
      && (g.Copied? && g.len >= 1 ==> w == Copied(g.len, g.text[..g.len - 1]))
      && (g.Copied? && g.len == 0 ==> w == StrayWrite(0))
      && (g.NoRoom? ==> w == StrayWrite(TwoTo32 - 1))
  {
    if length > 0 {
      var n := CopyLength(v, length);
      if n >= 1 {
        assert v[..n][..n - 1] == v[..n - 1];
      }
    }
  }

  /** registry_string_get as written against the corrected version, for every
      file, key and buffer size. */
  lemma StringGetAsWrittenLosesLast(file: Option<seq<Entry>>, id: string, length: Uint32)
    ensures var g := StringGet(file, id, length);
      var w := StringGetAsWritten(file, id, length);
      && (g.NotFound? <==> w.NotFound?)
      && (g.Copied? && g.len >= 1 ==> w == Copied(g.len, g.text[..g.len - 1]))
      && (g.Copied? && g.len == 0 ==> w == StrayWrite(0))
      && (g.NoRoom? ==> w == StrayWrite(TwoTo32 - 1))
  {
    match ReadString(file, id, |id|)
    case None =>
    case Some(v) => CopiesCompared(v, length);
  }

  /** With the key given in full, an entry matches exactly when its name,
      after leading whitespace, starts with the key; so the key "id" also
      matches an entry named "identity" that comes first. */
  lemma {:induction false} StringGetMatchesPrefix(entries: seq<Entry>, id: string, i: nat)
    requires i < |entries|
    ensures Matches(entries[i], id, |id|) <==> id <= SkipSpace(entries[i].name)
  {
    StrnEqualMeansPrefix(SkipSpace(entries[i].name), id, |id|);
    assert id[..|id|] == id;
  }

  /** The file line "name=abc" read into a 16-byte buffer: the source reports
      3 characters but leaves "ab"; the corrected copy leaves "abc". */
  lemma StringGetDropsLastCharacter()
    ensures StringGetAsWritten(Some([Entry("name", "abc")]), "name", 16) == Copied(3, "ab")
    ensures StringGet(Some([Entry("name", "abc")]), "name", 16) == Copied(3, "abc")
  {
    var e := Entry("name", "abc");
    assert LeadingSpace("name") == 0;
    StrnEqualMeansPrefix("name", "name", 4);
    assert "name"[..4] == "name";
    assert Matches(e, "name", 4);
    assert LeadingSpace("abc") == 0;
    assert KeptBeforeSpace("abc") == 3;
    assert Trim("abc") == "abc";
  }

  /** A value of blanks only trims to the empty string; the source then
      stores its terminator outside the buffer, the corrected copy reports 0. */
  lemma StringGetBlankValue()
    ensures StringGetAsWritten(Some([Entry("k", " ")]), "k", 8) == StrayWrite(0)
    ensures StringGet(Some([Entry("k", " ")]), "k", 8) == Copied(0, "")
  {
    var e := Entry("k", " ");
    assert LeadingSpace("k") == 0;
    StrnEqualMeansPrefix("k", "k", 1);
    assert "k"[..1] == "k";
    assert Matches(e, "k", 1);
    assert LeadingSpace(" ") == 1;
    assert Trim(" ") == "";
  }
}

=== FILE: status.dfy ===
/** The engine's return codes (ENGINE_OK, ENGINE_FAIL, ENGINE_PARM), shared
    by both ports. The Coral entry points modelled here never return `Parm`. */
module EngineStatus {
  datatype Status = Ok | Fail | Parm
}

=== FILE: timer_list.dfy ===
/** The POSIX port's list of pending timed events (src/port/engine_posix.c):
    a singly linked list kept in non-decreasing order of absolute expiry,
    modelled as an immutable sequence whose first element is the list head.
    A node's identity (its address in C) is its `id`. */
module TimerList {
  import opened Ints

  type NodeId = nat

  /** ENGINE_EVENT_T: `complete` identifies the callback, the other fields are
      passed through to it unchanged. */
  datatype Timer = Timer(id: NodeId, expire: int, event: int, register: int, parm: int, complete: nat)

  /** A list mutation together with whether it asks the dispatch thread to
      wake up (`sem_post` in the source). */
  datatype Mutation = Mutation(list: seq<Timer>, signal: bool)

  /** The firing pass splits the list into the nodes it fires and the rest. */
  datatype Split = Split(fired: seq<Timer>, rest: seq<Timer>)

  ghost predicate Sorted(list: seq<Timer>) {
    forall i, j :: 0 <= i < j < |list| ==> list[i].expire <= list[j].expire
  }

  predicate HasId(list: seq<Timer>, id: NodeId) {
    exists i :: 0 <= i < |list| && list[i].id == id
  }

  /** No node is linked twice. */
  ghost predicate UniqueIds(list: seq<Timer>) {
    forall i, j :: 0 <= i < j < |list| ==> list[i].id != list[j].id
  }

  /** Every expiry in `list` is within the range in which the 32-bit
      difference of the insertion comparison does not wrap. */
  ghost predicate InWindow(list: seq<Timer>, expire: int) {
    forall i :: 0 <= i < |list| ==> IsInt32(expire - list[i].expire)
  }

  /** The insertion walk's loop condition: `(int32_t)(task->expire - start->expire) >= 0`. */
  predicate NotBefore(t: Timer, n: Timer) {
    ToInt32(t.expire - n.expire) >= 0
  }

  /** The firing pass's loop condition: `head->expire - now <= 0` on `time_t`. */
  predicate Due(n: Timer, now: int) {
    n.expire - now <= 0
  }

  /** How many nodes the insertion walk steps over: the first node the new one
      is before, or the end of the list. */
  function InsertIndex(list: seq<Timer>, t: Timer): (k: nat)
    ensures k <= |list|
    ensures forall i :: 0 <= i < k ==> NotBefore(t, list[i])
    ensures k < |list| ==> !NotBefore(t, list[k])
  {
    if |list| == 0 || !NotBefore(t, list[0]) then 0
    else 1 + InsertIndex(list[1..], t)
  }

  /** insert_event: link `t` after the leading run of nodes it is not before, and signal
      exactly when it becomes the new head. */
  function InsertEvent(list: seq<Timer>, t: Timer): (r: Mutation)
    ensures |r.list| == |list| + 1
    ensures exists k :: 0 <= k <= |list| && r.list == list[..k] + [t] + list[k..]
                        && (forall i :: 0 <= i < k ==> NotBefore(t, list[i]))
                        && (k < |list| ==> !NotBefore(t, list[k]))
    ensures r.signal <==> |list| == 0 || !NotBefore(t, list[0])
    ensures r.signal ==> r.list[0] == t
    ensures !r.signal ==> r.list[0] == list[0]
  {
    var k := InsertIndex(list, t);
    var r := list[..k] + [t] + list[k..];
    assert k == 0 ==> r[0] == t;
    assert k > 0 ==> r[0] == list[0];
    assert 0 <= k <= |list| && r == list[..k] + [t] + list[k..]
           && (forall i :: 0 <= i < k ==> NotBefore(t, list[i]))
           && (k < |list| ==> !NotBefore(t, list[k]));
    Mutation(r, k == 0)
  }

  /** The list insert_event builds, in terms of the walk's length. */
  lemma InsertAtIndex(list: seq<Timer>, t: Timer)
    ensures InsertEvent(list, t).list == list[..InsertIndex(list, t)] + [t] + list[InsertIndex(list, t)..]
  {
  }

  /** The node at each position once insert_event has linked `t`. */
  lemma InsertShifts(list: seq<Timer>, t: Timer, j: int)
    requires 0 <= j <= |list|
    ensures var k := InsertIndex(list, t);
      InsertEvent(list, t).list[j] == if j < k then list[j] else if j == k then t else list[j - 1]
  {
    InsertAtIndex(list, t);
  }

  /** insert_event links exactly one node more: the result is the old list
      with `t` added. */
  lemma InsertAddsOneNode(list: seq<Timer>, t: Timer)
    ensures multiset(InsertEvent(list, t).list) == multiset(list) + multiset{t}
  {
    var k := InsertIndex(list, t);
    InsertAtIndex(list, t);
    assert list == list[..k] + list[k..];
  }

  /** Position of the first node with identity `id`. */
  function IndexOf(list: seq<Timer>, id: NodeId): (i: nat)
    requires HasId(list, id)
    ensures i < |list| && list[i].id == id
    ensures forall j :: 0 <= j < i ==> list[j].id != id
  {
    if list[0].id == id then 0
    else
      assert HasId(list[1..], id) by {
        var j :| 0 <= j < |list| && list[j].id == id;
        assert list[1..][j - 1].id == id;
      }
      1 + IndexOf(list[1..], id)
  }

  /** remove_event: an empty list is left alone; otherwise the node with
      identity `id` is unlinked, and the thread is signalled exactly when that
      node was the head. The walk at line 136 has no end-of-list check, so a
      non-empty list must hold the node. */
  function RemoveEvent(list: seq<Timer>, id: NodeId): (r: Mutation)
    requires |list| == 0 || HasId(list, id)
    ensures |list| == 0 ==> r.list == list && !r.signal
    ensures |list| > 0 ==> |r.list| == |list| - 1
    ensures |list| > 0 ==> (r.signal <==> list[0].id == id)
    ensures |list| > 0 ==> exists i :: 0 <= i < |list| && list[i].id == id
                                     && r.list == list[..i] + list[i + 1..]
                                     && (forall j :: 0 <= j < i ==> list[j].id != id)
  {
    if |list| == 0 then Mutation(list, false)
    else
      var i := IndexOf(list, id);
      Mutation(list[..i] + list[i + 1..], i == 0)
  }

  /** The firing pass of engine_thread: pop and fire heads while they are due. */
  function FirePass(list: seq<Timer>, now: int): (r: Split)
    ensures r.fired + r.rest == list
    ensures forall i :: 0 <= i < |r.fired| ==> Due(r.fired[i], now)
    ensures |r.rest| > 0 ==> !Due(r.rest[0], now)
  {
    if |list| > 0 && Due(list[0], now) then
      var s := FirePass(list[1..], now);
      FiredHeadFirst(list, now, s);
      Split([list[0]] + s.fired, s.rest)
    else
      Split([], list)
  }

  /** Firing a due head in front of the rest of a firing pass keeps the
      pass's promises. */
  lemma FiredHeadFirst(list: seq<Timer>, now: int, s: Split)
    requires |list| > 0 && Due(list[0], now)
    requires s.fired + s.rest == list[1..]
    requires forall i :: 0 <= i < |s.fired| ==> Due(s.fired[i], now)
    ensures ([list[0]] + s.fired) + s.rest == list
    ensures forall i :: 0 <= i < |[list[0]] + s.fired| ==> Due(([list[0]] + s.fired)[i], now)
  {
    var f := [list[0]] + s.fired;
    assert f + s.rest == [list[0]] + (s.fired + s.rest);
    forall i | 0 <= i < |f|
      ensures Due(f[i], now)
    {
      if i > 0 {
        assert f[i] == s.fired[i - 1];
      }
    }
  }

  /** Inside the window the truncated comparison is the plain one. */
  lemma NotBeforeInWindow(t: Timer, n: Timer)
    requires IsInt32(t.expire - n.expire)
    ensures NotBefore(t, n) <==> n.expire <= t.expire
  {
  }

  /** In a sorted list within the window, insert_event places the new node
      after every node with an equal or earlier expiry and before every later
      one (first scheduled, first fired among ties), and signals exactly when
      the list was empty or the new expiry is strictly earlier than the old
      head's. */
  lemma {:induction false} InsertAfterTies(list: seq<Timer>, t: Timer)
    requires Sorted(list) && InWindow(list, t.expire)
    ensures forall i :: 0 <= i < |list| ==> (i < InsertIndex(list, t) <==> list[i].expire <= t.expire)
    ensures InsertEvent(list, t).signal <==> |list| == 0 || t.expire < list[0].expire
  {
    var k := InsertIndex(list, t);
    forall i | 0 <= i < |list|
      ensures i < k <==> list[i].expire <= t.expire
    {
      NotBeforeInWindow(t, list[i]);
      if i >= k {
        NotBeforeInWindow(t, list[k]);
      }
    }
    if |list| > 0 {
      NotBeforeInWindow(t, list[0]);
    }
  }

  /** insert_event keeps a sorted list within the window sorted. */
  lemma {:induction false} InsertKeepsSorted(list: seq<Timer>, t: Timer)
    requires Sorted(list) && InWindow(list, t.expire)
    ensures Sorted(InsertEvent(list, t).list)
  {
    var k := InsertIndex(list, t);
    var r := InsertEvent(list, t).list;
    InsertAfterTies(list, t);
    forall i, j | 0 <= i < j < |r|
      ensures r[i].expire <= r[j].expire
    {
      InsertShifts(list, t, i);
      InsertShifts(list, t, j);
    }
  }

  /** With unique identities, the node found by identity is the node itself. */
  lemma IndexOfUnique(list: seq<Timer>, n: Timer)
    requires UniqueIds(list) && n in list
    ensures HasId(list, n.id) && list[IndexOf(list, n.id)] == n
  {
    var k :| 0 <= k < |list| && list[k] == n;
    assert HasId(list, n.id);
  }

  /** A node not yet linked keeps the identities unique once inserted. */
  lemma InsertKeepsIdsUnique(list: seq<Timer>, t: Timer)
    requires UniqueIds(list) && !HasId(list, t.id)
    ensures UniqueIds(InsertEvent(list, t).list)
    ensures HasId(InsertEvent(list, t).list, t.id)
  {
    var k := InsertIndex(list, t);
    var r := InsertEvent(list, t).list;
    InsertShifts(list, t, k);
    forall i, j | 0 <= i < j < |r|
      ensures r[i].id != r[j].id
    {
      InsertShifts(list, t, i);
      InsertShifts(list, t, j);
    }
  }

  /** Cancelling a node right after scheduling it restores the list:
      remove_event undoes insert_event, and signals exactly when the insertion did. */
  lemma RemoveUndoesInsert(list: seq<Timer>, t: Timer)
    requires !HasId(list, t.id)
    ensures HasId(InsertEvent(list, t).list, t.id)
    ensures RemoveEvent(InsertEvent(list, t).list, t.id).list == list
    ensures RemoveEvent(InsertEvent(list, t).list, t.id).signal == InsertEvent(list, t).signal
  {
    var k := InsertIndex(list, t);
    var r := InsertEvent(list, t).list;
    InsertShifts(list, t, k);
    assert HasId(r, t.id);
    var i := IndexOf(r, t.id);
    InsertShifts(list, t, i);
    assert i == k;
    InsertAtIndex(list, t);
    assert r[..k] == list[..k];
    assert r[k + 1..] == list[k..];
    assert list == list[..k] + list[k..];
  }

  /** The node left at each position after remove_event unlinks position `i`. */
  lemma RemoveShifts(list: seq<Timer>, id: NodeId, j: int)
    requires HasId(list, id) && 0 <= j < |list| - 1
    ensures RemoveEvent(list, id).list[j] == if j < IndexOf(list, id) then list[j] else list[j + 1]
  {
  }

  /** remove_event keeps the order of the remaining nodes, so a sorted list stays sorted. */
  lemma RemoveKeepsSorted(list: seq<Timer>, id: NodeId)
    requires HasId(list, id) && Sorted(list)
    ensures Sorted(RemoveEvent(list, id).list)
  {
    var r := RemoveEvent(list, id).list;
    forall a, b | 0 <= a < b < |r|
      ensures r[a].expire <= r[b].expire
    {
      RemoveShifts(list, id, a);
      RemoveShifts(list, id, b);
    }
  }

  /** With unique identities remove_event takes out exactly the node `id`
      and keeps every other node. */
  lemma RemoveKeepsOthers(list: seq<Timer>, id: NodeId)
    requires HasId(list, id) && UniqueIds(list)
    ensures UniqueIds(RemoveEvent(list, id).list)
    ensures !HasId(RemoveEvent(list, id).list, id)
    ensures forall n :: n in RemoveEvent(list, id).list <==> n in list && n.id != id
  {
    var i := IndexOf(list, id);
    var r := RemoveEvent(list, id).list;
    forall a, b | 0 <= a < b < |r|
      ensures r[a].id != r[b].id
    {
      RemoveShifts(list, id, a);
      RemoveShifts(list, id, b);
    }
    forall a | 0 <= a < |r|
      ensures r[a] in list && r[a].id != id
    {
      RemoveShifts(list, id, a);
    }
    forall n | n in list && n.id != id
      ensures n in r
    {
      var j :| 0 <= j < |list| && list[j] == n;
      if j < i {
        RemoveShifts(list, id, j);
      } else {
        RemoveShifts(list, id, j - 1);
      }
    }
  }

  /** One step of the firing pass: a due head is fired before the rest. */
  lemma FirePassStep(list: seq<Timer>, now: int)
    ensures |list| > 0 && Due(list[0], now) ==>
              FirePass(list, now) == Split([list[0]] + FirePass(list[1..], now).fired, FirePass(list[1..], now).rest)
    ensures !(|list| > 0 && Due(list[0], now)) ==> FirePass(list, now) == Split([], list)
  {
  }

  /** The firing pass fires a prefix of the list. */
  lemma FirePassPrefix(list: seq<Timer>, now: int)
    ensures FirePass(list, now).fired == list[..|FirePass(list, now).fired|]
    ensures FirePass(list, now).rest == list[|FirePass(list, now).fired|..]
  {
    var s := FirePass(list, now);
    assert s.fired + s.rest == list;
  }

  /** On a sorted list the firing pass leaves a sorted list none of whose
      nodes is due. */
  lemma FirePassLeavesNothingDue(list: seq<Timer>, now: int)
    requires Sorted(list)
    ensures Sorted(FirePass(list, now).rest)
    ensures forall i :: 0 <= i < |FirePass(list, now).rest| ==> !Due(FirePass(list, now).rest[i], now)
  {
    var s := FirePass(list, now);
    var k := |s.fired|;
    FirePassPrefix(list, now);
    forall i | 0 <= i < |s.rest|
      ensures !Due(s.rest[i], now)
    {
      assert s.rest[i] == list[k + i] && s.rest[0] == list[k];
    }
  }

  /** On a sorted list the firing pass fires exactly the due nodes: a node
      is fired if and only if it is due. */
  lemma FirePassFiresDue(list: seq<Timer>, now: int)
    requires Sorted(list)
    ensures forall j :: 0 <= j < |list| ==> (j < |FirePass(list, now).fired| <==> Due(list[j], now))
  {
    var s := FirePass(list, now);
    var k := |s.fired|;
    FirePassLeavesNothingDue(list, now);
    FirePassPrefix(list, now);
    forall j | 0 <= j < |list|
      ensures j < k <==> Due(list[j], now)
    {
      if j < k {
        assert s.fired[j] == list[j];
      } else {
        assert s.rest[j - k] == list[j];
      }
    }
  }

  /** Links `nodes` one after the other, each with insert_event. */
  function InsertAll(list: seq<Timer>, nodes: seq<Timer>): seq<Timer>
    decreases |nodes|
  {
    if |nodes| == 0 then list else InsertAll(InsertEvent(list, nodes[0]).list, nodes[1..])
  }

  /** Any two expiries of `list` are within the 32-bit window of each other. */
  ghost predicate Close(list: seq<Timer>) {
    forall i, j :: 0 <= i < |list| && 0 <= j < |list| ==> IsInt32(list[i].expire - list[j].expire)
  }

  /** A node no earlier than every linked node goes to the tail. */
  lemma InsertLatestAppends(list: seq<Timer>, t: Timer)
    requires InWindow(list, t.expire)
    requires forall i :: 0 <= i < |list| ==> list[i].expire <= t.expire
    ensures InsertEvent(list, t).list == list + [t]
  {
    forall i | 0 <= i < |list|
      ensures NotBefore(t, list[i])
    {
      NotBeforeInWindow(t, list[i]);
    }
    assert InsertIndex(list, t) == |list|;
  }

  /** In a sorted, close list the node at `k` is no earlier than, and within
      the window of, every node before it. */
  lemma LatestOfSortedClose(all: seq<Timer>, k: nat)
    requires Sorted(all) && Close(all) && k < |all|
    ensures InWindow(all[..k], all[k].expire)
    ensures forall i :: 0 <= i < k ==> all[..k][i].expire <= all[k].expire
  {
  }

  /** Nodes scheduled in non-decreasing order of expiry (for instance with
      non-decreasing delays from the same instant) are linked in scheduling
      order, so the firing pass meets them in that order; equal expiries keep
      their scheduling order. */
  lemma {:induction false} InsertAllInOrder(list: seq<Timer>, nodes: seq<Timer>)
    requires Sorted(list + nodes) && Close(list + nodes)
    ensures InsertAll(list, nodes) == list + nodes
    decreases |nodes|
  {
    if |nodes| > 0 {
      var t := nodes[0];
      var all := list + nodes;
      LatestOfSortedClose(all, |list|);
      assert all[..|list|] == list && all[|list|] == t;
      InsertLatestAppends(list, t);
      assert (list + [t]) + nodes[1..] == all;
      InsertAllInOrder(list + [t], nodes[1..]);
    }
  }
}
